=== FILE: README.md ===
# TouchLine match time accounting in Dafny

A model of the time-accounting core of TouchLine, an iOS app for coaching a
live match. It covers:

- the match clock (`elapsedSeconds`), pause, resume and halftime;
- per-player playing time, the open on-field and bench intervals, and the
  underplayed test;
- the roster average and the top-three substitution suggestions;
- the substitution button and the end-of-match fold of open stints;
- the three `mm:ss` formatters;
- the guards that decide which controls the scoreboard and the setup screen
  offer, match creation from the selected players, and deletion of ended
  matches from the history.

Instants are `real` seconds and are passed in explicitly; the source reads
`Date()` at those points. Swift's `Int(Double)` truncates toward zero. So do
Swift's `Int` `/` and `%`. These are written out as `TimeFormat.Trunc`,
`TimeFormat.Quot` and `TimeFormat.Rem`, and `String(format: "%02d")` as
`TimeFormat.Pad2`.

A roster entry (`Model.MatchPlayer`) carries both stint representations the
code uses:

- the wall-clock `lastSubInTime`, read and written by pause, resume,
  substitution and end of match (assumed to be a stored optional instant, see
  "## Left out");
- the match-relative `lastSubInMatchSeconds` / `lastSubOutMatchSeconds`, read
  by the playing-time functions.

Each operation touches only the fields its Swift counterpart touches. The
"nothing else changes" clauses use `Model.SameExceptStint` and record updates
of the form `m.(field := ...)`.

The modules follow the source files:

| module | source |
|---|---|
| `Model` | Models/Player.swift, Models/MatchPlayer.swift, Models/Match.swift (records only) |
| `MatchClock` | Models/Match.swift: clock, pause, resume, halftime |
| `PlayerTime` | Models/MatchPlayer.swift |
| `MatchAggregate` | Models/Match.swift: `init`, `averageSecondsPlayed` |
| `Ranking`, `SubSuggestions` | Views/SubSuggestionsView.swift |
| `PlayerRow` | Views/PlayerRow.swift |
| `MatchActive` | Views/MatchActiveView.swift |
| `TimeFormat` | TimeFormatter.swift |
| `MatchClockView` | Views/MatchClockView.swift |
| `ScoreboardHeader` | Views/ScoreboardHeader.swift |
| `MatchSetup` | Views/MatchSetupView.swift |
| `MatchHistory` | Views/MatchHistoryView.swift |
| `StintMarkers` | Models/MatchPlayer.swift: the match-relative markers, against every operation that writes a roster entry |

The model follows the code as written, including these behaviours, each
stated as a property:

- `averageSecondsPlayed` averages over every roster entry, including players
  who never played (`MatchAggregate.AverageIsMean`,
  `MatchAggregate.AverageCountsUnplayedEntries`).
- `secondsPlayed`, `currentStintSeconds` and `benchSeconds` are not clamped
  at 0.
- `resume` clears `pausedAt` but not `pauseReason`.
- Ending a match does not use the pause instant as the end.
- An ended match that is still paused keeps losing time as `now` advances
  (`MatchClock.EndedWhilePausedClockShrinks`).
- `startHalftime` does not tag its pause, so `endHalftime` never fires (see
  Findings).
- The clock counts from `startTime`, the instant the match is created
  (Models/Match.swift:30), not from a separate start of play
  (`MatchAggregate.NewMatch`).
- Substitution, pause, resume and the end of the match measure stints on the
  wall clock through `lastSubInTime` (Views/PlayerRow.swift:45-52,
  Models/Match.swift:70-72 and 85, Views/MatchActiveView.swift:68-72), not in
  match seconds. A player subbed in and out during a pause is credited the
  paused time, while the match clock stays frozen (`PlayerRow.SubInThenOut`
  holds for any match).
- `secondsPlayed`, `currentStintSeconds` and `benchSeconds` read
  `lastSubInMatchSeconds` and `lastSubOutMatchSeconds`
  (Models/MatchPlayer.swift:20-21, 33-35, 52-60), but none of the modelled
  code writes them. Every entry the app creates keeps both unset. Its
  `secondsPlayed` is then its completed total, so the average and the
  suggestions never count an open stint (`StintMarkers.MatchOperationsKeepUnmarked`,
  `StintMarkers.AverageIgnoresOpenStints`).

The calls `secondsPlayed(at:)` at Models/Match.swift:54 and
Views/PlayerRow.swift:36 go to an overload that is not part of this model; the
assumption made about it is under "## Left out".

## Model

| member | source | states |
|---|---|---|
| MatchClock.ElapsedSeconds | Models/Match.swift:35-46 | Never negative. Open and running: the time since the match was created (`startTime`) minus all completed pauses, floored at 0. Open and paused: frozen at the pause instant. Ended and not paused: fixed at the end instant. Ended while paused: the time since the pause is still subtracted. |
| MatchClock.ElapsedMonotoneWhileRunning | Models/Match.swift:35-46 | A running, open clock never goes backwards and advances by at most the wall-clock time that passes. |
| MatchClock.ElapsedFrozenWhilePaused | Models/Match.swift:38-45 | A paused, open match reads the same at every instant. |
| MatchClock.ElapsedFixedOnceEnded | Models/Match.swift:36-39 | An ended, unpaused match reads the same at every instant. |
| MatchClock.EndedWhilePausedClockShrinks | Models/Match.swift:36-45 | A match created at 0, pauses at 100 and ends at 150 reads 100 at 150 but 0 at 1000. |
| MatchClock.FreezeStint | Models/Match.swift:69-74 | An on-field player with an open stint gets that stint added to the total and the stint start cleared. Everyone else is unchanged. Identity and snapshot fields never change. |
| MatchClock.RestartStint | Models/Match.swift:84-86 | Only on-field players get a new stint start at `now`. |
| MatchClock.Pause | Models/Match.swift:64-75 | A no-op when already paused. Otherwise records the pause instant and freezes every roster entry's stint, in order, changing no other match field. The clock of an open match then stays at the value it had at the pause. |
| MatchClock.Resume | Models/Match.swift:77-87 | A no-op unless paused. Otherwise adds the pause to the paused total, clears the pause and restarts on-field stints at `now`. The clock reads the same just before and just after resuming. |
| MatchClock.StartHalftime | Models/Match.swift:89-94 | At most once per match: pauses and records halftime. Leaves `pauseReason` as it was. |
| MatchClock.EndHalftime | Models/Match.swift:96-100 | Does nothing unless the pause is tagged as halftime. When it is, clears the tag and resumes, so the match is running again. |
| MatchClock.EndHalftimeAfterStartHalftimeIsNoOp | Models/Match.swift:89-100 | For a match whose pause has never been tagged, starting and then ending halftime leaves the match paused, exactly as the start left it. |
| MatchClock.StartHalftimeTagged | Models/Match.swift:89-94 | The corrected start: at most once per match, pauses, records halftime and tags the pause as halftime. |
| MatchClock.EndHalftimeAfterTaggedStartResumes | Models/Match.swift:77-100 | With the corrected start, a halftime from t1 to t2 leaves the match running with t2 - t1 added to the paused total. The clock reads at t2 what it read at t1. |
| PlayerTime.NewMatchPlayer | Models/MatchPlayer.swift:24-28 | A new roster entry copies the player's name and jersey number, starts on the bench with no time, and has no stint markers or position. |
| PlayerTime.NewPlayerHasNoTime | Models/MatchPlayer.swift:18-38 | A new roster entry has 0 seconds played and 0 bench seconds, in any match and at any instant. |
| PlayerTime.CurrentStintSeconds | Models/MatchPlayer.swift:52-55 | 0 when benched or without a stint marker. Otherwise the match clock minus the marker, unclamped. |
| PlayerTime.BenchSeconds | Models/MatchPlayer.swift:57-60 | 0 when on the field or without a bench marker. Otherwise the match clock minus the marker, unclamped. |
| PlayerTime.SecondsPlayed | Models/MatchPlayer.swift:30-38 | Always the completed total plus the current stint. Exactly the completed total when benched or without a marker. |
| PlayerTime.StintAndBenchExclusive | Models/MatchPlayer.swift:52-60 | At any instant at least one of the on-field and bench intervals is 0. |
| PlayerTime.SecondsPlayedIgnoresRoster | Models/MatchPlayer.swift:30-38 | A player's time depends on the match only through its clock, not through its roster. |
| PlayerTime.SecondsPlayedFrozenWhilePaused | Models/MatchPlayer.swift:30-38 | While an open match is paused, nobody's playing time changes. |
| PlayerTime.IsUnderplayed | Models/MatchPlayer.swift:42-49 | True exactly when the player's time trails the average by more than the threshold. With a non-negative threshold, a player at or above the average is never underplayed. |
| PlayerTime.UnderplayedAntitoneInThreshold | Models/MatchPlayer.swift:48 | Raising the threshold can only clear the flag, never set it. |
| PlayerTime.UnderplayedExamples | Models/MatchPlayer.swift:42-49 | With the default 60 s threshold and an average of 100 s, 30 s is underplayed and 50 s is not. |
| MatchAggregate.NewMatch | Models/Match.swift:28-33 | One fresh roster entry per given player, in order. The name, sport and start are as given. Never paused, never ended, no halftime, no paused time. |
| MatchAggregate.NewMatchAverageIsZero | Models/Match.swift:50-58 | The average playing time of a freshly created match is 0 at every instant. |
| MatchAggregate.AverageSecondsPlayed | Models/Match.swift:50-58 | 0 for an empty roster. Otherwise between the least-played and the most-played entry's time. |
| MatchAggregate.SumPlayedIsTotal | Models/Match.swift:53-55 | The left fold that `reduce` computes, ((0 + s0) + s1) + …, equals the right fold `TotalPlayed`, s0 + (s1 + (… + 0)). |
| MatchAggregate.AverageIsMean | Models/Match.swift:50-58 | On a non-empty roster the average is the total of every entry's `secondsPlayed`, added up from the front, divided by the roster size. |
| MatchAggregate.AverageCountsUnplayedEntries | Models/Match.swift:50-58 | Entries that never played count: one entry with 120 s and one with none average 60 s, not 120 s. |
| MatchAggregate.MeanOfBounded | Models/Match.swift:53-57 | If every entry's time lies in [lo, hi], so does the sum divided by the roster size. |
| MatchAggregate.AverageOfEqualTimes | Models/Match.swift:50-58 | When everyone has played the same time, that time is the average. |
| Ranking.Filter | Views/SubSuggestionsView.swift:46-48 | Keeps exactly the entries that pass, drawn from the input without duplication. Empty when nothing passes. |
| Ranking.FilterCounts | Views/SubSuggestionsView.swift:46-48 | Each passing entry is kept as often as it occurs in the input. Nothing else is kept. |
| Ranking.FilterAppend | Views/SubSuggestionsView.swift:46-48 | Input order is kept: filtering a concatenation gives the concatenation of the filtered parts. |
| Ranking.FilterSingleton | Views/SubSuggestionsView.swift:46-48 | A single entry is kept exactly when it passes. |
| Ranking.SortDesc | Views/SubSuggestionsView.swift:51-55 | A permutation of the input in non-increasing key order. |
| Ranking.PrefixKeepsLargest | Views/SubSuggestionsView.swift:58 | In a list sorted by descending key, nothing left out of the first k entries has a larger key than anything kept. |
| Ranking.TopK | Views/SubSuggestionsView.swift:51-58 | At most k entries, in descending key order, drawn from the input. All entries when there are at most k, otherwise exactly k. No omitted entry has a larger key than a kept one. |
| SubSuggestions.FilterUnderplayed | Views/SubSuggestionsView.swift:44-48 | Exactly the underplayed roster entries. Empty when nobody is underplayed. |
| SubSuggestions.FilterUnderplayedCounts | Views/SubSuggestionsView.swift:46-48 | Each underplayed entry is kept as often as it is on the roster. No other entry is kept. |
| SubSuggestions.FilterUnderplayedKeepsOrder | Views/SubSuggestionsView.swift:46-48 | Roster order is kept: the filtered parts of a split roster concatenate to the filtered whole. A single entry is kept exactly when it is underplayed. |
| SubSuggestions.SortByDeficit | Views/SubSuggestionsView.swift:51-55 | A permutation of its input, ordered from most to least behind the average. |
| SubSuggestions.Suggest | Views/SubSuggestionsView.swift:44-59 | At most three entries, each underplayed and drawn from the roster without duplication. Ordered by deficit. All underplayed players when there are at most three, otherwise exactly three. No omitted underplayed player trails by more than a suggested one. |
| SubSuggestions.UnderplayedPlayers | Views/SubSuggestionsView.swift:40-59 | The same guarantees against the roster's own average playing time. |
| SubSuggestions.EqualTimesSuggestNobody | Views/SubSuggestionsView.swift:40-48 | When every player has the same playing time, there are no suggestions. |
| SubSuggestions.NobodyBelowAverageSuggestNobody | Views/SubSuggestionsView.swift:44-48 | When nobody is below the average, there are no suggestions. |
| PlayerRow.ToggleSub | Views/PlayerRow.swift:42-54 | Always flips on-field/bench. Going off: the open wall-clock stint is credited if there is one, the total is unchanged if not, and the start is cleared. Coming on: the stint starts at `now` and the total is unchanged. Identity, snapshots and match-relative markers are untouched. |
| PlayerRow.SubInThenOut | Views/PlayerRow.swift:42-54 | Subbing in at t1 and out at t2 credits exactly t2 - t1 and leaves the player benched with no open stint. |
| PlayerRow.ToggleTwiceSameInstant | Views/PlayerRow.swift:42-54 | Two toggles at the same instant give back the benched player unchanged, apart from the cleared stint start. |
| PlayerRow.TimeString | Views/PlayerRow.swift:35-40 | The row label, split with `Int(seconds / 60)` and `Int(seconds) % 60`, is the same text `formatTime` prints for the player's time. |
| MatchActive.EndStint | Views/MatchActiveView.swift:67-73 | Each loop step benches an on-field player as the substitution button would and leaves benched players alone. |
| MatchActive.EndStintsConserve | Views/MatchActiveView.swift:67-73 | After the loop, the sum of all totals has grown by exactly the sum of the open stints. |
| StintMarkers.StintUpdatesKeepMarkers | Views/PlayerRow.swift:42-54 | `toggleSub`, the pause freeze, the resume restart and the end-of-match step each leave `lastSubInMatchSeconds` and `lastSubOutMatchSeconds` exactly as they were. |
| StintMarkers.NewMatchUnmarked | Models/MatchPlayer.swift:20-28 | Every entry of a new match starts with both match-relative markers unset. |
| StintMarkers.ToggleSubKeepsUnmarked | Views/PlayerRow.swift:42-54 | A substitution on one entry keeps every entry of the roster unmarked. |
| StintMarkers.MatchOperationsKeepUnmarked | Models/Match.swift:66-100 | Pause, resume, both halftime starts, halftime end and the end of the match keep every entry unmarked. |
| StintMarkers.UnmarkedPlaysCompletedTotal | Models/MatchPlayer.swift:30-60 | An unmarked entry reports no open stint and no bench time, even on the field. Its playing time is its completed total. |
| StintMarkers.AverageIgnoresOpenStints | Models/Match.swift:50-58 | Over an unmarked roster the average is the mean of the completed totals alone. |
| PlayerRow.TapSub | Views/PlayerRow.swift:26-30 | The Sub In / Sub Out button is disabled once the match has ended, so a tap then leaves the entry unchanged. Before that a tap moves the player to the other side, touching only the stint fields. |
| MatchActive.TapEndMatch | Views/MatchActiveView.swift:27-33 | The End Match button is disabled once the match has ended, so a tap then changes nothing. Before that a tap ends the match at `now` and moves exactly the open stints into the totals. |
| MatchActive.EndMatchTappedTwice | Views/MatchActiveView.swift:27-33 | A second End Match tap changes nothing: the first end instant stays and no stint is credited twice. |
| MatchActive.NoSubstitutionAfterEnd | Views/PlayerRow.swift:26-30 | After the match has ended, every entry is benched and no row's tap changes it. |
| MatchActive.EndMatch | Views/MatchActiveView.swift:64-76 | The match is ended at `now` and nobody is left on the field. Benched players are untouched. Each on-field player is benched with the open stint credited. The totals grow by exactly the open stints. No other match field changes. An open match's clock reads the same at `now`. |
| MatchActive.Tick | Views/MatchActiveView.swift:57-61 | The screen instant follows the timer only while the match is open. |
| MatchActive.ClockStopsAfterEndMatch | Views/MatchActiveView.swift:57-76 | After the match is ended, later ticks leave the screen instant and the clock where they were. |
| TimeFormat.Trunc | TimeFormatter.swift:11 | Truncation toward zero: within one second of the input, on the input's side of zero. |
| TimeFormat.Rem | TimeFormatter.swift:12-13 | Swift's truncating quotient and remainder recombine to the dividend. The remainder is in [0, 60) for non-negative totals and in (-60, 0] for negative ones. |
| TimeFormat.Pad2 | TimeFormatter.swift:14 | `%02d` prints at least two characters. They are all digits and read back as the number when it is non-negative. Exactly two for 0..99, three or more from 100. A minus sign first for negatives. |
| TimeFormat.ParseDigitsOfDigits | TimeFormatter.swift:14 | Reading a number's decimal digits back gives the number. |
| TimeFormat.Fields | TimeFormatter.swift:11-13 | minutes * 60 + seconds is the truncated total. For non-negative input, minutes ≥ 0 and seconds are in [0, 60). |
| TimeFormat.FormatTime | TimeFormatter.swift:10-15 | At least 5 characters. For non-negative input: digits, a colon third from the end, and two digits. Exactly 5 characters below 100 minutes, longer from then on. Reading MM * 60 + SS back gives the truncated seconds. |
| TimeFormat.RenderParses | TimeFormatter.swift:14 | A non-negative minutes field and a seconds field in [0, 60), printed `%02d:%02d`, read back as minutes * 60 + seconds. |
| TimeFormat.RealFields | Views/PlayerRow.swift:37-38 | Dividing by 60 before truncating gives the same minutes as truncating first. So `Int(s / 60)` and `Int(s) % 60` pick the same fields as `formatTime`, for every input. |
| TimeFormat.TruncDiv60 | Views/ScoreboardHeader.swift:150-151 | Truncating s / 60 equals the truncating quotient of the truncated s by 60, for every sign. |
| MatchClockView.FormattedTime | Views/MatchClockView.swift:19-24 | The big clock prints the same text as `formatTime` for every input, and reads back as the truncated seconds. |
| ScoreboardHeader.DisplaySeconds | Views/ScoreboardHeader.swift:23-25 | The recorded final time when the match is ended and one exists, otherwise the live clock. Never negative when the live clock is used. |
| ScoreboardHeader.HeaderControls | Views/ScoreboardHeader.swift:66-127 | Start, Resume, Pause and Halftime appear exactly in their states, and Resume and Pause never together. Halftime is disabled once it has been had. End Match is disabled once ended. Removing an opponent goal needs play started and a goal to remove. Adding one needs play started. An ended match offers no clock control. |
| ScoreboardHeader.NoSecondHalftime | Views/ScoreboardHeader.swift:113-117 | Once halftime has been started, the header never enables it again. This holds for both the as-written start and the corrected one. |
| ScoreboardHeader.HeaderFormatTime | Views/ScoreboardHeader.swift:149-153 | The header's private formatter prints the same text as `formatTime` for every input. |
| MatchSetup.Toggle | Views/MatchSetupView.swift:100-107 | Selects an unselected id, deselects a selected one, and leaves every other id as it was. |
| MatchSetup.ToggleTwice | Views/MatchSetupView.swift:100-107 | Tapping the same player twice restores the selection. |
| MatchSetup.Trim | Views/MatchSetupView.swift:115 | Trimming whitespace and newlines gives the empty string exactly when the name is blank. |
| MatchSetup.FinalName | Views/MatchSetupView.swift:114-117 | A name with any non-blank character is used verbatim, untrimmed. A blank one gives the default name. |
| MatchSetup.SelectPlayers | Views/MatchSetupView.swift:110-112 | Exactly the roster players whose ids are selected, drawn from the roster without duplication. Jersey order is kept. |
| MatchSetup.SelectPlayersIsFilter | Views/MatchSetupView.swift:110-112 | Selection is the generic `filter` with the test "id is selected". |
| MatchSetup.SelectPlayersCounts | Views/MatchSetupView.swift:110-112 | Each selected roster player appears exactly as often as on the roster. Nobody else appears. |
| MatchSetup.SelectPlayersKeepsOrder | Views/MatchSetupView.swift:110-112 | Roster order is kept: selecting from a split roster and concatenating gives the selection from the whole. |
| MatchSetup.StartMatch | Views/MatchSetupView.swift:109-122 | Named by `FinalName`. Exactly one fresh entry per selected roster player, in roster order. Every entry is a selected roster player, and every selected roster player has an entry. Entries are in jersey order, benched with no time, in a running soccer match that starts at `now`. |
| MatchSetup.StartMatchOneEntryEach | Views/MatchSetupView.swift:109-122 | The new match has one entry for each time a selected player occurs on the roster, and none for anyone else. |
| MatchSetup.SetupView | Views/MatchSetupView.swift:30-95 | The form appears exactly when no stored match is unended, and the in-progress prompt exactly otherwise. Start Match appears only with the form and is enabled exactly when someone is selected. |
| MatchSetup.FirstActive | Views/MatchSetupView.swift:15-30 | Finds the first unended match in store order, or none when every match has ended. |
| MatchSetup.EndFirstActive | Views/MatchSetupView.swift:41-44 | The prompt's End Match sets only the end time of the first unended match, and nothing else. |
| MatchHistory.StatusLabel | Views/MatchHistoryView.swift:40 | Reads "Ended" exactly when the match has an end time, otherwise "In Progress". |
| MatchHistory.RemainingDropsDoomed | Views/MatchHistoryView.swift:54-62 | Among distinct matches, every selected ended match is gone after the loop. |
| MatchHistory.DeleteMatches | Views/MatchHistoryView.swift:54-62 | Removes matches only, never adds. Unended and unselected matches stay. Among distinct matches, every selected ended one goes. Selecting only in-progress matches changes nothing. |

## Left out

- `secondsPlayed(at:)`, called at Models/Match.swift:54 and Views/PlayerRow.swift:36, is an overload that is not part of this model. Only `secondsPlayed(match:at:)` is declared in the modelled files, and `PlayerRow` holds no match (Views/PlayerRow.swift:12-14). The model assumes the overload equals `secondsPlayed(match:at:)` on the match being shown. That means the match being averaged at the first call site. At the second call site it is the match whose roster holds the row's entry, passed as a parameter to `PlayerRow.TimeString`. The overload might instead measure the wall-clock `lastSubInTime` stint, which is the only marker pause, resume, substitution and end of match write. In that case the average and the row label differ from this model while a stint is open.

- `lastSubInTime` is used by Models/Match.swift:70-72 and 85, Views/PlayerRow.swift:45-52 and Views/MatchActiveView.swift:68-72, but no file modelled here declares it. Models/MatchPlayer.swift does not declare it. The model assumes a stored `Date?` that a new entry starts as nil (`PlayerTime.NewMatchPlayer`).

- SwiftUI layout, animation, haptics, navigation and the `Timer` publisher: UI and lifecycle only. The timer's effect on `now` is `MatchActive.Tick`.
- SwiftData persistence (`@Model`, `@Query`, insert and delete): the store is a `seq<Match>`, and deletion is computing the surviving list.
- Player CRUD screens (Views/AddPlayerView.swift, Views/PlayersView.swift, Views/PlayerEditView.swift), Views/MatchRosterEditView.swift, Views/MatchSummaryView.swift, Views/ContentView.swift, Views/MatchView.swift and App/TouchLineApp.swift: form plumbing and wiring of operations that are not part of this model.
- Models/MatchEvent.swift and Models/MatchEventType.swift: event records with no operations here. The goal counts they feed enter the header as the opaque `ScoreboardHeader.HeaderFacts`.
- `hasStartedPlay`, `goalsFor`, `goalsAgainst`, `finalElapsedSeconds`, `addOpponentGoal` and `removeLastOpponentGoal` are used by the header but not defined in the modelled files. They are fields of `HeaderFacts`, with no bodies invented.
- `SportType.surfaceName`: a fixed enum-to-string mapping. `Match.isFinished`: the same test as `IsEnded`.
- `Date()` reads and the generated default match name (a formatted date): the instant and the default name are parameters.
- `TimeInterval` is a `Double`. The model uses exact `real` arithmetic, so rounding, overflow of `Int(Double)` and non-finite values are not modelled.
- Player identity in the store is object identity. It is modelled by `PlayerId` for players and by value equality for matches.
- Ranking.SortDesc: Swift's `sorted(by:)` does not promise stability, and the model states nothing about the order of entries with equal keys. Every stated suggestion property holds whatever order ties take.
- MatchHistory.DeleteMatches: deleting every selected ended match is stated only when no two stored matches are equal values. Two stored matches are always distinct objects, which value equality cannot express.
- MatchHistory.DeleteMatches: requires every offset to index the list, as Swift's array subscript traps otherwise.
- TimeFormat.FormatTime: for negative durations only the minimum length is stated. The sign rules for each field are in `TimeFormat.Fields` and `TimeFormat.Pad2`.
- PlayerRow label text, colours and the "Sub In"/"Sub Out" caption: rendering only.

## Findings

| source | as written | input that shows it | evidently intended | confidence | as-written member | corrected member |
|---|---|---|---|---|---|---|
| Models/Match.swift:89-94 | `startHalftime` pauses and sets `hasHadHalftime` but never sets `pauseReason`. No code in the files modelled here sets it, so `endHalftime` (Models/Match.swift:96-100) always stops at its guard. | A running match with no halftime yet: `startHalftime(at: t1)` then `endHalftime(at: t2)` leaves the match paused at t1. | `startHalftime` tags the pause as `.halftime`, so `endHalftime` clears the tag and resumes. | not executed | MatchClock.EndHalftimeAfterStartHalftimeIsNoOp | MatchClock.EndHalftimeAfterTaggedStartResumes |

`ScoreboardHeader.NoSecondHalftime` is stated for both the as-written
`MatchClock.StartHalftime` and the corrected `MatchClock.StartHalftimeTagged`.

=== FILE: match_active.dfy ===
/**
 The live match screen of Views/MatchActiveView.swift: ending the match,
 and the once-a-second tick that advances the screen's `now`.
 */
module MatchActive {
  import opened Optional
  import opened Model
  import opened MatchClock
  import opened PlayerRow

  /** One iteration of the `endMatch()` loop: close an on-field player's stint at `end`. */
  function EndStint(p: MatchPlayer, end: real): (q: MatchPlayer)
    ensures p.isOnField ==> q == ToggleSub(p, end)
    ensures !p.isOnField ==> q == p
    ensures !q.isOnField
  {
    if p.isOnField then
      var total := match p.lastSubInTime
        case Some(lastIn) => p.totalSecondsPlayed + (end - lastIn)
        case None => p.totalSecondsPlayed;
      p.(totalSecondsPlayed := total, isOnField := false, lastSubInTime := None)
    else
      p
  }

  /** The wall-clock length of a player's open on-field stint at `end`, 0 if none. */
  function OpenStint(p: MatchPlayer, end: real): real {
    if p.isOnField && p.lastSubInTime.Some? then end - p.lastSubInTime.value else 0.0
  }

  function SumTotals(ps: seq<MatchPlayer>): real {
    if ps == [] then 0.0 else ps[0].totalSecondsPlayed + SumTotals(ps[1..])
  }

  function SumOpenStints(ps: seq<MatchPlayer>, end: real): real {
    if ps == [] then 0.0 else OpenStint(ps[0], end) + SumOpenStints(ps[1..], end)
  }

  /** Closing every stint moves exactly the open stint time into the totals. */
  lemma {:induction false} EndStintsConserve(ps: seq<MatchPlayer>, qs: seq<MatchPlayer>, end: real)
    requires |qs| == |ps|
    requires forall i :: 0 <= i < |ps| ==> qs[i] == EndStint(ps[i], end)
    ensures SumTotals(qs) == SumTotals(ps) + SumOpenStints(ps, end)
    decreases |ps|
  {
    if ps != [] {
      EndStintsConserve(ps[1..], qs[1..], end);
    }
  }

  /**
   `endMatch()`: benches every on-field player with the open stint up to
   `now` credited, and sets `endTime` to `now`. Benched players and every
   other match field are left alone.
   */
  function EndMatch(m: Match, now: real): (r: Match)
    ensures r.IsEnded() && r.endTime == Some(now)
    ensures r == m.(endTime := Some(now), matchPlayers := r.matchPlayers)
    ensures |r.matchPlayers| == |m.matchPlayers|
    ensures forall i :: 0 <= i < |r.matchPlayers| ==> !r.matchPlayers[i].isOnField
    ensures forall i :: 0 <= i < |m.matchPlayers| && !m.matchPlayers[i].isOnField ==>
      r.matchPlayers[i] == m.matchPlayers[i]
    ensures forall i :: 0 <= i < |m.matchPlayers| && m.matchPlayers[i].isOnField ==>
      r.matchPlayers[i] == ToggleSub(m.matchPlayers[i], now)
    ensures SumTotals(r.matchPlayers) == SumTotals(m.matchPlayers) + SumOpenStints(m.matchPlayers, now)
    ensures !m.IsEnded() ==> ElapsedSeconds(r, now) == ElapsedSeconds(m, now)
  {
    var ps := MapPlayers(m.matchPlayers, p => EndStint(p, now));
    EndStintsConserve(m.matchPlayers, ps, now);
    m.(matchPlayers := ps, endTime := Some(now))
  }

  /**
   A tap on the End Match button. The button is `.disabled(match.isEnded)`,
   so a tap on an ended match changes nothing; before that it is `endMatch()`.
   */
  function TapEndMatch(m: Match, now: real): (r: Match)
    ensures m.IsEnded() ==> r == m
    ensures !m.IsEnded() ==> r.endTime == Some(now)
    ensures SumTotals(r.matchPlayers) == SumTotals(m.matchPlayers) + (if m.IsEnded() then 0.0 else SumOpenStints(m.matchPlayers, now))
  {
    if m.IsEnded() then m else EndMatch(m, now)
  }

  /**
   A match is ended at most once: a second tap on End Match keeps the first
   end instant and credits no stint twice.
   */
  lemma EndMatchTappedTwice(m: Match, t1: real, t2: real)
    ensures TapEndMatch(TapEndMatch(m, t1), t2) == TapEndMatch(m, t1)
    ensures !m.IsEnded() ==> TapEndMatch(TapEndMatch(m, t1), t2).endTime == Some(t1)
  {
  }

  /** Once the match has ended, no row's Sub In / Sub Out tap changes its entry. */
  lemma NoSubstitutionAfterEnd(m: Match, now: real, i: nat, t: real)
    requires i < |m.matchPlayers|
    ensures var e := EndMatch(m, now);
      TapSub(e.matchPlayers[i], e.IsEnded(), t) == e.matchPlayers[i] && !e.matchPlayers[i].isOnField
  {
  }

  /** The timer handler: the screen's `now` follows the tick only while the match is open. */
  function Tick(m: Match, now: real, newTime: real): (t: real)
    ensures !m.IsEnded() ==> t == newTime
    ensures m.IsEnded() ==> t == now
  {
    if !m.IsEnded() then newTime else now
  }

  /**
   After `endMatch()` at `now`, later ticks leave the screen's instant, and
   so the clock it shows, where they were.
   */
  lemma ClockStopsAfterEndMatch(m: Match, now: real, newTime: real)
    ensures var e := EndMatch(m, now);
      Tick(e, now, newTime) == now
      && ElapsedSeconds(e, Tick(e, now, newTime)) == ElapsedSeconds(e, now)
  {
  }
}

=== FILE: match_aggregate.dfy ===
/**
 The roster-level parts of Models/Match.swift: creating a match from the
 selected players and averaging playing time over its roster.
 */
module MatchAggregate {
  import opened Optional
  import opened Model
  import opened MatchClock
  import opened PlayerTime

  /**
   `Match.init(name:players:sport:)`, with the creation instant passed in:
   one fresh roster entry per player, in order, and a clock that has never
   paused or ended.
   */
  function NewMatch(name: string, players: seq<Player>, sport: SportType, now: real): (m: Match)
    ensures m.name == name && m.sport == sport && m.startTime == now
    ensures !m.IsEnded() && !m.IsPaused() && m.pauseReason.None? && !m.hasHadHalftime
    ensures m.totalPausedSeconds == 0.0
    ensures |m.matchPlayers| == |players|
    ensures forall i :: 0 <= i < |players| ==> m.matchPlayers[i] == NewMatchPlayer(players[i])
    ensures forall t :: ElapsedSeconds(m, t) == Max(t - now, 0.0)
  {
    var ps := seq(|players|, i requires 0 <= i < |players| => NewMatchPlayer(players[i]));
    Match(sport, now, None, name, ps, None, 0.0, None, false)
  }

  /** Nobody in a freshly created match has played, so its average is 0 at every instant. */
  lemma NewMatchAverageIsZero(name: string, players: seq<Player>, sport: SportType, now: real, t: real)
    ensures AverageSecondsPlayed(NewMatch(name, players, sport, now), t) == 0.0
  {
    var m := NewMatch(name, players, sport, now);
    forall i | 0 <= i < |players|
      ensures SecondsPlayed(m.matchPlayers[i], m, t) == 0.0
    {
      NewPlayerHasNoTime(players[i], m, t);
    }
    SumBetween(m.matchPlayers, m, t, 0.0, 0.0);
    TimesIsProduct(|m.matchPlayers|, 0.0);
  }

  /** `reduce(0) { $0 + … }` over a roster: the left fold ((0 + s0) + s1) + … of `secondsPlayed`. */
  function SumPlayed(ps: seq<MatchPlayer>, m: Match, now: real): real {
    if ps == [] then 0.0
    else SumPlayed(ps[..|ps| - 1], m, now) + SecondsPlayed(ps[|ps| - 1], m, now)
  }

  /** The smallest `secondsPlayed` on a non-empty roster. */
  function MinPlayed(ps: seq<MatchPlayer>, m: Match, now: real): (lo: real)
    requires |ps| > 0
    ensures forall i :: 0 <= i < |ps| ==> lo <= SecondsPlayed(ps[i], m, now)
    ensures exists i :: 0 <= i < |ps| && lo == SecondsPlayed(ps[i], m, now)
  {
    if |ps| == 1 then SecondsPlayed(ps[0], m, now)
    else
      var rest := MinPlayed(ps[1..], m, now);
      var first := SecondsPlayed(ps[0], m, now);
      assert forall i :: 1 <= i < |ps| ==> ps[i] == ps[1..][i - 1];
      if first <= rest then first else rest
  }

  /** The largest `secondsPlayed` on a non-empty roster. */
  function MaxPlayed(ps: seq<MatchPlayer>, m: Match, now: real): (hi: real)
    requires |ps| > 0
    ensures forall i :: 0 <= i < |ps| ==> SecondsPlayed(ps[i], m, now) <= hi
    ensures exists i :: 0 <= i < |ps| && hi == SecondsPlayed(ps[i], m, now)
  {
    if |ps| == 1 then SecondsPlayed(ps[0], m, now)
    else
      var rest := MaxPlayed(ps[1..], m, now);
      var first := SecondsPlayed(ps[0], m, now);
      assert forall i :: 1 <= i < |ps| ==> ps[i] == ps[1..][i - 1];
      if first >= rest then first else rest
  }

  /** `n` copies of `x` added up, which keeps the sum bounds below linear. */
  function Times(n: nat, x: real): (r: real)
    ensures n == 0 ==> r == 0.0
  {
    if n == 0 then 0.0 else Times(n - 1, x) + x
  }

  lemma {:induction false} TimesIsProduct(n: nat, x: real)
    ensures Times(n, x) == n as real * x
  {
    if n > 0 {
      TimesIsProduct(n - 1, x);
    }
  }

  /** A sum of terms that all lie in [lo, hi] lies in [n * lo, n * hi]. */
  lemma {:induction false} SumBetween(ps: seq<MatchPlayer>, m: Match, now: real, lo: real, hi: real)
    requires forall i :: 0 <= i < |ps| ==> lo <= SecondsPlayed(ps[i], m, now) <= hi
    ensures Times(|ps|, lo) <= SumPlayed(ps, m, now) <= Times(|ps|, hi)
    decreases |ps|
  {
    if ps != [] {
      var init := ps[..|ps| - 1];
      assert forall i :: 0 <= i < |init| ==> init[i] == ps[i];
      SumBetween(init, m, now, lo, hi);
    }
  }

  /**
   `averageSecondsPlayed(at:)`: 0 for an empty roster, otherwise the mean of
   every entry's `secondsPlayed`, which lies between the least and the most
   played.
   */
  function AverageSecondsPlayed(m: Match, now: real): (avg: real)
    ensures |m.matchPlayers| == 0 ==> avg == 0.0
    ensures |m.matchPlayers| > 0 ==>
      MinPlayed(m.matchPlayers, m, now) <= avg <= MaxPlayed(m.matchPlayers, m, now)
  {
    var ps := m.matchPlayers;
    if |ps| == 0 then 0.0
    else
      MeanWithinRange(ps, m, now);
      SumPlayed(ps, m, now) / |ps| as real
  }

  /** The mean playing time lies between the least and the most played. */
  lemma MeanWithinRange(ps: seq<MatchPlayer>, m: Match, now: real)
    requires |ps| > 0
    ensures var mean := SumPlayed(ps, m, now) / |ps| as real;
      MinPlayed(ps, m, now) <= mean <= MaxPlayed(ps, m, now)
  {
    MeanOfBounded(ps, m, now, MinPlayed(ps, m, now), MaxPlayed(ps, m, now));
  }

  /** The mean of terms that all lie in [lo, hi] lies in [lo, hi]. */
  lemma MeanOfBounded(ps: seq<MatchPlayer>, m: Match, now: real, lo: real, hi: real)
    requires |ps| > 0
    requires forall i :: 0 <= i < |ps| ==> lo <= SecondsPlayed(ps[i], m, now) <= hi
    ensures lo <= SumPlayed(ps, m, now) / |ps| as real <= hi
  {
    SumBetween(ps, m, now, lo, hi);
    MeanBetween(|ps|, SumPlayed(ps, m, now), lo, hi);
  }

  lemma MeanBetween(n: nat, total: real, lo: real, hi: real)
    requires n > 0 && Times(n, lo) <= total <= Times(n, hi)
    ensures lo <= total / n as real <= hi
  {
    TimesIsProduct(n, lo);
    TimesIsProduct(n, hi);
    QuotientBetween(total, n as real, lo, hi);
  }

  lemma QuotientBetween(total: real, d: real, lo: real, hi: real)
    requires d > 0.0 && d * lo <= total <= d * hi
    ensures lo <= total / d <= hi
  {
  }

  /** The right fold s0 + (s1 + (… + 0)) of `secondsPlayed`: a reference sum independent of `SumPlayed`. */
  function TotalPlayed(ps: seq<MatchPlayer>, m: Match, now: real): real {
    if ps == [] then 0.0 else SecondsPlayed(ps[0], m, now) + TotalPlayed(ps[1..], m, now)
  }

  /** The left fold that `reduce` computes equals the right fold `TotalPlayed`. */
  lemma {:induction false} SumPlayedIsTotal(ps: seq<MatchPlayer>, m: Match, now: real)
    ensures SumPlayed(ps, m, now) == TotalPlayed(ps, m, now)
    decreases |ps|
  {
    if ps != [] {
      var init := ps[..|ps| - 1];
      SumPlayedIsTotal(init, m, now);
      TotalPlayedSnoc(init, ps[|ps| - 1], m, now);
      assert init + [ps[|ps| - 1]] == ps;
    }
  }

  lemma {:induction false} TotalPlayedSnoc(ps: seq<MatchPlayer>, x: MatchPlayer, m: Match, now: real)
    ensures TotalPlayed(ps + [x], m, now) == TotalPlayed(ps, m, now) + SecondsPlayed(x, m, now)
    decreases |ps|
  {
    if ps != [] {
      assert (ps + [x])[1..] == ps[1..] + [x];
      TotalPlayedSnoc(ps[1..], x, m, now);
    }
  }

  /**
   The average is the mean over the whole roster, players who never came on
   included: every entry's `secondsPlayed` added up, divided by the roster
   size.
   */
  lemma AverageIsMean(m: Match, now: real)
    requires |m.matchPlayers| > 0
    ensures AverageSecondsPlayed(m, now) == TotalPlayed(m.matchPlayers, m, now) / |m.matchPlayers| as real
  {
    SumPlayedIsTotal(m.matchPlayers, m, now);
  }

  /**
   A player who never came on still counts: with one benched entry that has
   played 120 seconds and one that has never played, the average is 60, not
   120.
   */
  lemma AverageCountsUnplayedEntries(now: real)
    ensures var played := NewMatchPlayer(Player(1, "A", 7)).(totalSecondsPlayed := 120.0);
      var unplayed := NewMatchPlayer(Player(2, "B", 8));
      var m := Match(Soccer, 0.0, None, "", [played, unplayed], None, 0.0, None, false);
      AverageSecondsPlayed(m, now) == 60.0
  {
    var played := NewMatchPlayer(Player(1, "A", 7)).(totalSecondsPlayed := 120.0);
    var unplayed := NewMatchPlayer(Player(2, "B", 8));
    var m := Match(Soccer, 0.0, None, "", [played, unplayed], None, 0.0, None, false);
    AverageIsMean(m, now);
    assert TotalPlayed(m.matchPlayers, m, now) == 120.0 by {
      var rest := m.matchPlayers[1..];
      assert rest == [unplayed] && rest[1..] == [];
      assert TotalPlayed(rest, m, now) == SecondsPlayed(unplayed, m, now) + TotalPlayed([], m, now);
      assert SecondsPlayed(played, m, now) == 120.0;
      assert SecondsPlayed(unplayed, m, now) == 0.0;
    }
  }

  /** When everyone has played the same time, that time is the average. */
  lemma AverageOfEqualTimes(m: Match, now: real, c: real)
    requires |m.matchPlayers| > 0
    requires forall i :: 0 <= i < |m.matchPlayers| ==> SecondsPlayed(m.matchPlayers[i], m, now) == c
    ensures AverageSecondsPlayed(m, now) == c
  {
    var ps := m.matchPlayers;
    var lo := MinPlayed(ps, m, now);
    var hi := MaxPlayed(ps, m, now);
    assert lo == c && hi == c;
  }
}

=== FILE: match_clock.dfy ===
/**
 The match clock of Models/Match.swift: match-relative elapsed time, and the
 pause / resume / halftime transitions, which also freeze and restart the
 wall-clock stints of the players on the field.
 */
module MatchClock {
  import opened Optional
  import opened Model

  function Max(a: real, b: real): (r: real)
    ensures r >= a && r >= b && (r == a || r == b)
  {
    if a >= b then a else b
  }

  /**
   `elapsedSeconds(at:)`: seconds of play since `startTime`, never negative.
   The clock stops at `endTime` and at `pausedAt`; when a match is both ended
   and paused the time since the pause is still subtracted from the ended
   clock, so such a clock shrinks as `now` advances.
   */
  function ElapsedSeconds(m: Match, now: real): (e: real)
    ensures e >= 0.0
    ensures !m.IsEnded() && !m.IsPaused() ==>
      e == Max(now - m.startTime - m.totalPausedSeconds, 0.0)
    ensures !m.IsEnded() && m.IsPaused() ==>
      e == Max(m.pausedAt.value - m.startTime - m.totalPausedSeconds, 0.0)
    ensures m.IsEnded() && !m.IsPaused() ==>
      e == Max(m.endTime.value - m.startTime - m.totalPausedSeconds, 0.0)
    ensures m.IsEnded() && m.IsPaused() ==>
      e == Max(m.endTime.value - m.startTime - m.totalPausedSeconds - (now - m.pausedAt.value), 0.0)
  {
    var effectiveEnd := m.endTime.GetOr(now);
    var elapsed := effectiveEnd - m.startTime - m.totalPausedSeconds;
    var elapsed' := if m.pausedAt.Some? then elapsed - (now - m.pausedAt.value) else elapsed;
    Max(elapsed', 0.0)
  }

  /** A running clock never goes backwards. */
  lemma ElapsedMonotoneWhileRunning(m: Match, t1: real, t2: real)
    requires !m.IsEnded() && !m.IsPaused()
    requires t1 <= t2
    ensures ElapsedSeconds(m, t1) <= ElapsedSeconds(m, t2)
    ensures ElapsedSeconds(m, t2) - ElapsedSeconds(m, t1) <= t2 - t1
  {
  }

  /** A paused, open match shows the same time whenever it is read. */
  lemma ElapsedFrozenWhilePaused(m: Match, t1: real, t2: real)
    requires !m.IsEnded() && m.IsPaused()
    ensures ElapsedSeconds(m, t1) == ElapsedSeconds(m, t2)
  {
  }

  /** An ended, unpaused match shows the same time whenever it is read. */
  lemma ElapsedFixedOnceEnded(m: Match, t1: real, t2: real)
    requires m.IsEnded() && !m.IsPaused()
    ensures ElapsedSeconds(m, t1) == ElapsedSeconds(m, t2)
  {
  }

  /**
   A match ended while paused keeps losing time: a match created at 0,
   paused at 100 and ended at 150 reads 100 seconds at 150 but 0 at 1000.
   */
  lemma EndedWhilePausedClockShrinks()
    ensures var m := Match(Soccer, 0.0, Some(150.0), "", [], Some(100.0), 0.0, None, false);
      && ElapsedSeconds(m, 150.0) == 100.0
      && ElapsedSeconds(m, 1000.0) == 0.0
  {
  }

  /** The stint freeze `pause` applies to one roster entry. */
  function FreezeStint(p: MatchPlayer, now: real): (q: MatchPlayer)
    ensures SameExceptStint(p, q) && q.isOnField == p.isOnField
    ensures p.isOnField ==> q.lastSubInTime.None?
    ensures p.isOnField && p.lastSubInTime.Some? ==>
      q.totalSecondsPlayed == p.totalSecondsPlayed + (now - p.lastSubInTime.value)
    ensures !(p.isOnField && p.lastSubInTime.Some?) ==> q == p
  {
    if p.isOnField && p.lastSubInTime.Some? then
      p.(totalSecondsPlayed := p.totalSecondsPlayed + (now - p.lastSubInTime.value),
         lastSubInTime := None)
    else
      p
  }

  /** The stint restart `resume` applies to one roster entry. */
  function RestartStint(p: MatchPlayer, now: real): (q: MatchPlayer)
    ensures p.isOnField ==> q == p.(lastSubInTime := Some(now))
    ensures !p.isOnField ==> q == p
  {
    if p.isOnField then p.(lastSubInTime := Some(now)) else p
  }

  /**
   `pause(at:)`: no-op when already paused; otherwise records the pause
   instant and folds every open on-field stint into the player's total.
   */
  function Pause(m: Match, now: real): (r: Match)
    ensures m.IsPaused() ==> r == m
    ensures !m.IsPaused() ==> r == m.(pausedAt := Some(now), matchPlayers := r.matchPlayers)
    ensures |r.matchPlayers| == |m.matchPlayers|
    ensures !m.IsPaused() ==> forall i :: 0 <= i < |m.matchPlayers| ==>
      r.matchPlayers[i] == FreezeStint(m.matchPlayers[i], now)
    ensures !m.IsPaused() && !m.IsEnded() ==>
      forall t :: ElapsedSeconds(r, t) == ElapsedSeconds(m, now)
  {
    if m.pausedAt.Some? then
      m
    else
      m.(pausedAt := Some(now), matchPlayers := MapPlayers(m.matchPlayers, p => FreezeStint(p, now)))
  }

  /**
   `resume(at:)`: no-op unless paused; otherwise adds the pause to
   `totalPausedSeconds`, clears `pausedAt` (but not `pauseReason`) and
   restarts every on-field player's stint at `now`.
   */
  function Resume(m: Match, now: real): (r: Match)
    ensures !m.IsPaused() ==> r == m
    ensures m.IsPaused() ==>
      r == m.(pausedAt := None,
              totalPausedSeconds := m.totalPausedSeconds + (now - m.pausedAt.value),
              matchPlayers := r.matchPlayers)
    ensures |r.matchPlayers| == |m.matchPlayers|
    ensures m.IsPaused() ==> forall i :: 0 <= i < |m.matchPlayers| ==>
      r.matchPlayers[i] == RestartStint(m.matchPlayers[i], now)
    ensures ElapsedSeconds(r, now) == ElapsedSeconds(m, now)
  {
    match m.pausedAt
    case None => m
    case Some(pausedAt) =>
      m.(totalPausedSeconds := m.totalPausedSeconds + (now - pausedAt),
         pausedAt := None,
         matchPlayers := MapPlayers(m.matchPlayers, p => RestartStint(p, now)))
  }

  /**
   `startHalftime(at:)`: at most once per match, pauses and records that
   halftime has happened. It does not tag the pause with a reason.
   */
  function StartHalftime(m: Match, now: real): (r: Match)
    ensures m.hasHadHalftime ==> r == m
    ensures !m.hasHadHalftime ==> r == Pause(m, now).(hasHadHalftime := true)
    ensures r.hasHadHalftime && r.pauseReason == m.pauseReason
    ensures !m.hasHadHalftime ==> r.IsPaused()
  {
    if m.hasHadHalftime then m else Pause(m, now).(hasHadHalftime := true)
  }

  /**
   `endHalftime(at:)`: only when the pause is tagged as halftime, clears the
   tag and resumes.
   */
  function EndHalftime(m: Match, now: real): (r: Match)
    ensures m.pauseReason != Some(Halftime) ==> r == m
    ensures m.pauseReason == Some(Halftime) ==>
      r == Resume(m.(pauseReason := None), now) && !r.IsPaused() && r.pauseReason.None?
  {
    if m.pauseReason != Some(Halftime) then m
    else Resume(m.(pauseReason := None), now)
  }

  /**
   As written, ending halftime after starting it does nothing: a match whose
   pause carries no reason (every match the app creates) stays paused.
   */
  lemma EndHalftimeAfterStartHalftimeIsNoOp(m: Match, t1: real, t2: real)
    requires m.pauseReason.None? && !m.hasHadHalftime
    ensures EndHalftime(StartHalftime(m, t1), t2) == StartHalftime(m, t1)
    ensures EndHalftime(StartHalftime(m, t1), t2).IsPaused()
  {
  }

  /** The evidently intended halftime start: like `StartHalftime`, but tags the pause. */
  function StartHalftimeTagged(m: Match, now: real): (r: Match)
    ensures m.hasHadHalftime ==> r == m
    ensures !m.hasHadHalftime ==> r.IsPaused() && r.hasHadHalftime && r.pauseReason == Some(Halftime)
    ensures !m.hasHadHalftime && !m.IsPaused() ==> r.pausedAt == Some(now)
  {
    if m.hasHadHalftime then m
    else Pause(m, now).(hasHadHalftime := true, pauseReason := Some(Halftime))
  }

  /**
   With the tagged start, halftime started at t1 and ended at t2 is one pause
   of t2 - t1 seconds: the match runs again, the break is added to the paused
   total, and the clock reads at t2 what it read at t1.
   */
  lemma EndHalftimeAfterTaggedStartResumes(m: Match, t1: real, t2: real)
    requires !m.hasHadHalftime && !m.IsPaused() && !m.IsEnded()
    ensures var r := EndHalftime(StartHalftimeTagged(m, t1), t2);
      && !r.IsPaused() && r.pauseReason.None? && r.hasHadHalftime
      && r.totalPausedSeconds == m.totalPausedSeconds + (t2 - t1)
      && ElapsedSeconds(r, t2) == ElapsedSeconds(m, t1)
  {
    var h := StartHalftimeTagged(m, t1);
    assert ElapsedSeconds(h, t2) == ElapsedSeconds(m, t1);
  }
}

=== FILE: match_clock_view.dfy ===
/** The big clock of Views/MatchClockView.swift. */
module MatchClockView {
  import opened Optional
  import opened TimeFormat

  /**
   `formattedTime`: whole seconds, split into minutes and seconds with
   Swift's truncating `/` and `%`, printed `%02d:%02d`; the same text as
   `formatTime` for every input.
   */
  function FormattedTime(elapsedSeconds: real): (s: string)
    ensures s == FormatTime(elapsedSeconds)
    ensures elapsedSeconds >= 0.0 ==> ParseClock(s) == Some(Trunc(elapsedSeconds))
  {
    var total := Trunc(elapsedSeconds);
    var minutes := Quot(total, 60);
    var seconds := Rem(total, 60);
    Render(minutes, seconds)
  }
}

=== FILE: match_history.dfy ===
/** The match list of Views/MatchHistoryView.swift: status labels and deletion. */
module MatchHistory {
  import opened Model

  /** The status label beside each match. */
  function StatusLabel(m: Match): (text: string)
    ensures text == "Ended" <==> m.IsEnded()
    ensures !m.IsEnded() ==> text == "In Progress"
  {
    if m.IsEnded() then "Ended" else "In Progress"
  }

  /** No match value occurs twice: stored matches are distinct objects. */
  predicate Distinct(ms: seq<Match>) {
    forall i, j :: 0 <= i < j < |ms| ==> ms[i] != ms[j]
  }

  /** Whether the match at list offset `k` is deleted: selected and ended. */
  predicate Doomed(ms: seq<Match>, offsets: set<int>, base: int, k: int)
    requires 0 <= k < |ms|
  {
    base + k in offsets && ms[k].IsEnded()
  }

  /** The matches that survive, for a list whose first entry sits at offset `base`. */
  function Remaining(ms: seq<Match>, offsets: set<int>, base: int): (r: seq<Match>)
    ensures |r| <= |ms|
    ensures multiset(r) <= multiset(ms)
    ensures forall k :: 0 <= k < |ms| && !Doomed(ms, offsets, base, k) ==> ms[k] in r
    ensures (forall k :: 0 <= k < |ms| ==> !Doomed(ms, offsets, base, k)) ==> r == ms
  {
    if ms == [] then []
    else
      var rest := Remaining(ms[1..], offsets, base + 1);
      assert ms == [ms[0]] + ms[1..];
      ShiftDoomed(ms, offsets, base);
      if Doomed(ms, offsets, base, 0) then rest else [ms[0]] + rest
  }

  lemma ShiftDoomed(ms: seq<Match>, offsets: set<int>, base: int)
    requires |ms| > 0
    ensures forall k :: 1 <= k < |ms| ==>
      && ms[k] == ms[1..][k - 1]
      && (Doomed(ms, offsets, base, k) <==> Doomed(ms[1..], offsets, base + 1, k - 1))
  {
  }

  /** Among distinct matches, every doomed one is gone. */
  lemma {:induction false} RemainingDropsDoomed(ms: seq<Match>, offsets: set<int>, base: int)
    ensures Distinct(ms) ==>
      forall k :: 0 <= k < |ms| && Doomed(ms, offsets, base, k) ==> ms[k] !in Remaining(ms, offsets, base)
    decreases |ms|
  {
    if Distinct(ms) && ms != [] {
      var rest := Remaining(ms[1..], offsets, base + 1);
      assert Distinct(ms[1..]);
      RemainingDropsDoomed(ms[1..], offsets, base + 1);
      ShiftDoomed(ms, offsets, base);
      assert ms[0] !in ms[1..];
      assert forall x :: x in rest ==> x in multiset(ms[1..]) by {
        forall x | x in rest ensures x in multiset(ms[1..]) {
          assert x in multiset(rest);
        }
      }
    }
  }

  /**
   `deleteMatches(at:)`: removes the selected matches that have ended;
   in-progress matches and unselected matches stay.
   */
  function DeleteMatches(ms: seq<Match>, offsets: set<int>): (r: seq<Match>)
    requires forall k :: k in offsets ==> 0 <= k < |ms|
    ensures multiset(r) <= multiset(ms)
    ensures forall k :: 0 <= k < |ms| && !ms[k].IsEnded() ==> ms[k] in r
    ensures forall k :: 0 <= k < |ms| && k !in offsets ==> ms[k] in r
    ensures Distinct(ms) ==> forall k :: k in offsets && ms[k].IsEnded() ==> ms[k] !in r
    ensures (forall k :: k in offsets ==> !ms[k].IsEnded()) ==> r == ms
  {
    RemainingDropsDoomed(ms, offsets, 0);
    Remaining(ms, offsets, 0)
  }
}

=== FILE: match_setup.dfy ===
/**
 The new-match screen of Views/MatchSetupView.swift: the guard against a
 second open match, player selection, the match name, and match creation.
 The roster arrives sorted by jersey number from the store; the default
 name (a formatted creation date) and the creation instant are parameters.
 */
module MatchSetup {
  import opened Optional
  import opened Model
  import opened Ranking
  import opened PlayerTime
  import opened MatchAggregate

  /** `toggle(_:)`: selects an unselected player and deselects a selected one. */
  function Toggle(selected: set<PlayerId>, id: PlayerId): (r: set<PlayerId>)
    ensures id in selected ==> id !in r && r + {id} == selected
    ensures id !in selected ==> id in r && r - {id} == selected
    ensures forall other :: other != id ==> (other in r <==> other in selected)
  {
    if id in selected then selected - {id} else selected + {id}
  }

  /** Tapping the same row twice restores the selection. */
  lemma ToggleTwice(selected: set<PlayerId>, id: PlayerId)
    ensures Toggle(Toggle(selected, id), id) == selected
  {
  }

  /** Characters in Foundation's `.whitespacesAndNewlines`. */
  predicate IsWhitespaceOrNewline(c: char) {
    || '\t' <= c <= '\r' || c == ' ' || c == '\U{85}' || c == '\U{A0}' || c == '\U{1680}'
    || '\U{2000}' <= c <= '\U{200A}' || c == '\U{2028}' || c == '\U{2029}'
    || c == '\U{202F}' || c == '\U{205F}' || c == '\U{3000}'
  }

  predicate IsBlank(s: string) {
    forall i :: 0 <= i < |s| ==> IsWhitespaceOrNewline(s[i])
  }

  function TrimLeading(s: string): (r: string)
    ensures r == [] <==> IsBlank(s)
    ensures r != [] ==> !IsWhitespaceOrNewline(r[0])
  {
    if |s| > 0 && IsWhitespaceOrNewline(s[0]) then TrimLeading(s[1..]) else s
  }

  function TrimTrailing(s: string): (r: string)
    ensures r == [] <==> IsBlank(s)
  {
    if |s| > 0 && IsWhitespaceOrNewline(s[|s| - 1]) then TrimTrailing(s[..|s| - 1]) else s
  }

  /** `trimmingCharacters(in: .whitespacesAndNewlines)`: empty exactly when the input is blank. */
  function Trim(s: string): (r: string)
    ensures r == [] <==> IsBlank(s)
  {
    TrimTrailing(TrimLeading(s))
  }

  /**
   `finalName`: the typed name, untrimmed, when it has any character other
   than whitespace or newlines; otherwise the generated default.
   */
  function FinalName(typed: string, defaultName: string): (name: string)
    ensures !IsBlank(typed) ==> name == typed
    ensures IsBlank(typed) ==> name == defaultName
  {
    if |Trim(typed)| == 0 then defaultName else typed
  }

  predicate JerseySorted(ps: seq<Player>) {
    forall i, j :: 0 <= i < j < |ps| ==> ps[i].jerseyNumber <= ps[j].jerseyNumber
  }

  /** `players.filter { selectedPlayerIDs.contains(...) }`, roster order kept. */
  function SelectPlayers(players: seq<Player>, selected: set<PlayerId>): (r: seq<Player>)
    ensures forall p :: p in r ==> p in players && p.id in selected
    ensures forall p :: p in players && p.id in selected ==> p in r
    ensures |r| <= |players|
    ensures multiset(r) <= multiset(players)
    ensures JerseySorted(players) ==> JerseySorted(r)
  {
    if players == [] then []
    else
      var rest := SelectPlayers(players[1..], selected);
      TailMembers(players);
      if players[0].id in selected then
        PrependSorted(players, rest);
        [players[0]] + rest
      else
        rest
  }

  /** The selection test `filter` applies to each roster player. */
  function SelectedTest(selected: set<PlayerId>): Player -> bool {
    (p: Player) => p.id in selected
  }

  /**
   `SelectPlayers` is Swift's `filter` with the selection test, so it keeps
   roster order and each selected player exactly as often as the roster
   holds them.
   */
  lemma {:induction false} SelectPlayersIsFilter(players: seq<Player>, selected: set<PlayerId>)
    ensures SelectPlayers(players, selected) == Filter(players, SelectedTest(selected))
    decreases |players|
  {
    if players != [] {
      SelectPlayersIsFilter(players[1..], selected);
    }
  }

  /** Each selected roster player appears exactly as often as on the roster; nobody else appears. */
  lemma SelectPlayersCounts(players: seq<Player>, selected: set<PlayerId>)
    ensures forall p ::
      multiset(SelectPlayers(players, selected))[p] ==
      (if p.id in selected then multiset(players)[p] else 0)
  {
    SelectPlayersIsFilter(players, selected);
    FilterCounts(players, SelectedTest(selected));
  }

  /** Selection keeps roster order: selecting from two parts and concatenating selects from the whole. */
  lemma SelectPlayersKeepsOrder(a: seq<Player>, b: seq<Player>, selected: set<PlayerId>)
    ensures SelectPlayers(a + b, selected) == SelectPlayers(a, selected) + SelectPlayers(b, selected)
  {
    SelectPlayersIsFilter(a + b, selected);
    SelectPlayersIsFilter(a, selected);
    SelectPlayersIsFilter(b, selected);
    FilterAppend(a, b, SelectedTest(selected));
  }

  lemma TailMembers(players: seq<Player>)
    requires |players| > 0
    ensures forall p :: p in players <==> p == players[0] || p in players[1..]
    ensures multiset(players) == multiset{players[0]} + multiset(players[1..])
  {
    assert players == [players[0]] + players[1..];
  }

  lemma PrependSorted(players: seq<Player>, rest: seq<Player>)
    requires |players| > 0
    requires forall p :: p in rest ==> p in players[1..]
    ensures JerseySorted(players) && JerseySorted(rest) ==> JerseySorted([players[0]] + rest)
  {
    if JerseySorted(players) && JerseySorted(rest) {
      forall j | 0 <= j < |rest|
        ensures players[0].jerseyNumber <= rest[j].jerseyNumber
      {
        assert rest[j] in players[1..];
        var k :| 0 <= k < |players[1..]| && players[1..][k] == rest[j];
        assert players[k + 1] == rest[j];
      }
    }
  }

  /**
   `startMatch()`: a match over the selected players, in roster order, named
   by `FinalName`, starting at `now`.
   */
  function StartMatch(players: seq<Player>, selected: set<PlayerId>, typed: string,
                      defaultName: string, now: real): (m: Match)
    ensures !IsBlank(typed) ==> m.name == typed
    ensures IsBlank(typed) ==> m.name == defaultName
    ensures forall i :: 0 <= i < |m.matchPlayers| ==>
      m.matchPlayers[i].player in players && m.matchPlayers[i].player.id in selected
    ensures forall p :: p in players && p.id in selected ==>
      exists i :: 0 <= i < |m.matchPlayers| && m.matchPlayers[i].player == p
    ensures JerseySorted(players) ==> forall i, j :: 0 <= i < j < |m.matchPlayers| ==>
      m.matchPlayers[i].snapshotJerseyNumber <= m.matchPlayers[j].snapshotJerseyNumber
    ensures forall i :: 0 <= i < |m.matchPlayers| ==>
      !m.matchPlayers[i].isOnField && m.matchPlayers[i].totalSecondsPlayed == 0.0
    ensures m.startTime == now && !m.IsEnded() && !m.IsPaused() && m.sport == Soccer
    ensures var chosen := SelectPlayers(players, selected);
      && |m.matchPlayers| == |chosen|
      && forall i :: 0 <= i < |chosen| ==> m.matchPlayers[i] == NewMatchPlayer(chosen[i])
  {
    var chosen := SelectPlayers(players, selected);
    var m := NewMatch(FinalName(typed, defaultName), chosen, Soccer, now);
    RosterFollowsChoice(chosen, m.matchPlayers);
    m
  }

  /** The players a roster's entries stand for, in roster order. */
  function EntryPlayers(roster: seq<MatchPlayer>): (ps: seq<Player>)
    ensures |ps| == |roster| && forall i :: 0 <= i < |roster| ==> ps[i] == roster[i].player
  {
    seq(|roster|, i requires 0 <= i < |roster| => roster[i].player)
  }

  /**
   The new match has exactly one entry for each time a selected player
   occurs on the roster, and no entry for anyone else.
   */
  lemma StartMatchOneEntryEach(players: seq<Player>, selected: set<PlayerId>, typed: string,
                               defaultName: string, now: real)
    ensures var m := StartMatch(players, selected, typed, defaultName, now);
      forall p ::
        multiset(EntryPlayers(m.matchPlayers))[p] ==
        (if p.id in selected then multiset(players)[p] else 0)
  {
    var m := StartMatch(players, selected, typed, defaultName, now);
    assert EntryPlayers(m.matchPlayers) == SelectPlayers(players, selected);
    SelectPlayersCounts(players, selected);
  }

  lemma RosterFollowsChoice(chosen: seq<Player>, roster: seq<MatchPlayer>)
    requires |roster| == |chosen|
    requires forall i :: 0 <= i < |chosen| ==> roster[i] == NewMatchPlayer(chosen[i])
    ensures forall p :: p in chosen ==> exists i :: 0 <= i < |roster| && roster[i].player == p
    ensures JerseySorted(chosen) ==> forall i, j :: 0 <= i < j < |roster| ==>
      roster[i].snapshotJerseyNumber <= roster[j].snapshotJerseyNumber
  {
    forall p | p in chosen
      ensures exists i :: 0 <= i < |roster| && roster[i].player == p
    {
      var i :| 0 <= i < |chosen| && chosen[i] == p;
      assert roster[i].player == p;
    }
  }

  /** What the setup screen shows. */
  datatype SetupScreen = SetupScreen(showsInProgressPrompt: bool, showsForm: bool, startMatch: Availability)

  /**
   The setup screen for the stored matches and the current selection: while
   some match is unended it only offers to resume or end that match; the form
   and Start Match appear only when none is, and Start Match is disabled
   while nobody is selected.
   */
  function SetupView(matches: seq<Match>, selected: set<PlayerId>): (v: SetupScreen)
    ensures v.showsForm <==> forall i :: 0 <= i < |matches| ==> matches[i].IsEnded()
    ensures v.showsInProgressPrompt <==> !v.showsForm
    ensures v.startMatch.Shown() <==> v.showsForm
    ensures v.startMatch == Enabled <==> v.showsForm && selected != {}
  {
    var active := Filter(matches, (m: Match) => !m.IsEnded());
    assert active != [] ==> active[0] in multiset(matches);
    assert forall i :: 0 <= i < |matches| && !matches[i].IsEnded() ==> matches[i] in active;
    var none := active == [];
    SetupScreen(!none, none, if none then EnabledUnless(selected == {}) else Hidden)
  }

  /** Index of the first unended match in store order, if any. */
  function FirstActive(matches: seq<Match>): (k: Option<nat>)
    ensures k.None? <==> forall i :: 0 <= i < |matches| ==> matches[i].IsEnded()
    ensures k.Some? ==>
      && k.value < |matches| && !matches[k.value].IsEnded()
      && forall j :: 0 <= j < k.value ==> matches[j].IsEnded()
  {
    if matches == [] then None
    else if !matches[0].IsEnded() then Some(0)
    else
      match FirstActive(matches[1..])
      case None => None
      case Some(k) => Some(k + 1)
  }

  /**
   The prompt's End Match button: sets `endTime` on the first unended match
   and touches nothing else; unlike the live screen's end, it folds no
   player stints.
   */
  function EndFirstActive(matches: seq<Match>, now: real): (r: seq<Match>)
    ensures |r| == |matches|
    ensures FirstActive(matches).None? ==> r == matches
    ensures FirstActive(matches).Some? ==>
      var k := FirstActive(matches).value;
      && r[k] == matches[k].(endTime := Some(now))
      && forall j :: 0 <= j < |matches| && j != k ==> r[j] == matches[j]
  {
    match FirstActive(matches)
    case None => matches
    case Some(k) => matches[k := matches[k].(endTime := Some(now))]
  }
}

=== FILE: model.dfy ===
/**
 The records of the match-tracking app: players from the external roster,
 the per-match roster entries and the match itself. Instants are `real`
 seconds on a wall clock whose origin does not matter; durations are `real`
 seconds. Object identity of the persistent store is modelled by explicit ids.
 */
module Model {
  import opened Optional

  /** The persistent identifier the store gives a player. */
  type PlayerId = nat

  datatype SportType = Soccer | Basketball

  datatype Position = Goalkeeper | Defender | Midfielder | Forward

  /** The only reason a pause can carry. */
  datatype PauseReason = Halftime

  /** A roster player, owned by the external roster store. */
  datatype Player = Player(id: PlayerId, name: string, jerseyNumber: int)

  /**
   One player's state within one match. The entry carries both stint
   representations the app uses: the wall-clock `lastSubInTime` that the
   pause/resume, substitution and end-of-match code reads and writes, and the
   match-relative `lastSubInMatchSeconds` / `lastSubOutMatchSeconds` that the
   playing-time reads use. None of the modelled files declares
   `lastSubInTime`; it is taken to be a stored optional instant.
   */
  datatype MatchPlayer = MatchPlayer(
    player: Player,
    snapshotName: string,
    snapshotJerseyNumber: int,
    totalSecondsPlayed: real,
    isOnField: bool,
    lastSubInTime: Option<real>,
    lastSubInMatchSeconds: Option<real>,
    lastSubOutMatchSeconds: Option<real>,
    currentPosition: Option<Position>)

  datatype Match = Match(
    sport: SportType,
    startTime: real,
    endTime: Option<real>,
    name: string,
    matchPlayers: seq<MatchPlayer>,
    pausedAt: Option<real>,
    totalPausedSeconds: real,
    pauseReason: Option<PauseReason>,
    hasHadHalftime: bool)
  {
    predicate IsEnded() { endTime.Some? }

    predicate IsPaused() { pausedAt.Some? }
  }

  /** A screen button is not shown, shown but disabled, or shown and enabled. */
  datatype Availability = Hidden | Disabled | Enabled {
    predicate Shown() { this != Hidden }
  }

  /** A shown button with SwiftUI's `.disabled(condition)`. */
  function EnabledUnless(disabled: bool): (a: Availability)
    ensures a.Shown() && (a == Enabled <==> !disabled)
  {
    if disabled then Disabled else Enabled
  }

  /**
   Every field of a roster entry other than the three the stint bookkeeping
   writes (`totalSecondsPlayed`, `isOnField`, `lastSubInTime`) is the same.
   */
  predicate SameExceptStint(a: MatchPlayer, b: MatchPlayer) {
    && a.player == b.player
    && a.snapshotName == b.snapshotName
    && a.snapshotJerseyNumber == b.snapshotJerseyNumber
    && a.lastSubInMatchSeconds == b.lastSubInMatchSeconds
    && a.lastSubOutMatchSeconds == b.lastSubOutMatchSeconds
    && a.currentPosition == b.currentPosition
  }

  /** Applies one per-player update to every roster entry, keeping order. */
  function MapPlayers(ps: seq<MatchPlayer>, f: MatchPlayer -> MatchPlayer): (r: seq<MatchPlayer>)
    ensures |r| == |ps|
    ensures forall i :: 0 <= i < |ps| ==> r[i] == f(ps[i])
  {
    if ps == [] then [] else [f(ps[0])] + MapPlayers(ps[1..], f)
  }
}

=== FILE: optional.dfy ===
/** The optional values Swift writes as `T?`. */
module Optional {

  datatype Option<+T> = None | Some(value: T) {

    /** Swift's `x ?? default`. */
    function GetOr(default: T): T {
      match this
      case Some(v) => v
      case None => default
    }
  }
}

=== FILE: player_row.dfy ===
/**
 The substitution button and the playing-time label of Views/PlayerRow.swift.
 The button works on the wall-clock stint start `lastSubInTime`.
 */
module PlayerRow {
  import opened Optional
  import opened Model
  import opened PlayerTime
  import opened TimeFormat

  /**
   `toggleSub()`: an on-field player goes to the bench with the open
   wall-clock stint folded into the total; a benched player comes on with a
   stint starting at `now`.
   */
  function ToggleSub(p: MatchPlayer, now: real): (q: MatchPlayer)
    ensures q.isOnField == !p.isOnField
    ensures SameExceptStint(p, q)
    ensures p.isOnField ==> q.lastSubInTime.None?
    ensures p.isOnField && p.lastSubInTime.Some? ==>
      q.totalSecondsPlayed == p.totalSecondsPlayed + (now - p.lastSubInTime.value)
    ensures p.isOnField && p.lastSubInTime.None? ==> q.totalSecondsPlayed == p.totalSecondsPlayed
    ensures !p.isOnField ==> q.lastSubInTime == Some(now) && q.totalSecondsPlayed == p.totalSecondsPlayed
  {
    if p.isOnField then
      var total := match p.lastSubInTime
        case Some(lastIn) => p.totalSecondsPlayed + (now - lastIn)
        case None => p.totalSecondsPlayed;
      p.(totalSecondsPlayed := total, isOnField := false, lastSubInTime := None)
    else
      p.(isOnField := true, lastSubInTime := Some(now))
  }

  /**
   A tap on the row's Sub In / Sub Out button. The button is
   `.disabled(isMatchEnded)`, so once the match has ended a tap changes
   nothing; before that it is `toggleSub()`.
   */
  function TapSub(p: MatchPlayer, isMatchEnded: bool, now: real): (q: MatchPlayer)
    ensures isMatchEnded ==> q == p
    ensures !isMatchEnded ==> q.isOnField == !p.isOnField && SameExceptStint(p, q)
    ensures !isMatchEnded && !p.isOnField ==> q.lastSubInTime == Some(now)
  {
    if isMatchEnded then p else ToggleSub(p, now)
  }

  /**
   Subbing a benched player in at t1 and out at t2 credits exactly t2 - t1
   and leaves them benched with no open stint; nothing else changes.
   */
  lemma SubInThenOut(p: MatchPlayer, t1: real, t2: real)
    requires !p.isOnField
    ensures var q := ToggleSub(ToggleSub(p, t1), t2);
      && !q.isOnField && q.lastSubInTime.None? && SameExceptStint(p, q)
      && q.totalSecondsPlayed == p.totalSecondsPlayed + (t2 - t1)
  {
  }

  /** Two toggles at the same instant put a benched player back exactly as they were, apart from the cleared stint start. */
  lemma ToggleTwiceSameInstant(p: MatchPlayer, t: real)
    requires !p.isOnField
    ensures ToggleSub(ToggleSub(p, t), t) == p.(lastSubInTime := None)
  {
  }

  /** `timeString`: the row's `mm:ss` label, the same text `formatTime` prints. */
  function TimeString(p: MatchPlayer, m: Match, now: real): (s: string)
    ensures s == FormatTime(SecondsPlayed(p, m, now))
  {
    var seconds := SecondsPlayed(p, m, now);
    var f := RealFields(seconds);
    Render(f.0, f.1)
  }
}

=== FILE: player_time.dfy ===
/**
 Per-player playing time of Models/MatchPlayer.swift: the snapshot taken
 when a player joins a match, seconds played, the open on-field and bench
 intervals, and the underplayed test. All of it is measured in
 match-relative seconds read from the match clock.
 */
module PlayerTime {
  import opened Optional
  import opened Model
  import opened MatchClock

  /** The default margin by which a player must trail the average to be underplayed. */
  const DefaultThreshold: real := 60.0

  /**
   `MatchPlayer.init(player:)`: a frozen copy of the player's identity,
   benched, no time. `lastSubInTime` is not declared with the other fields;
   it is taken to start as nil like the other optionals.
   */
  function NewMatchPlayer(player: Player): (p: MatchPlayer)
    ensures p.player == player
    ensures p.snapshotName == player.name && p.snapshotJerseyNumber == player.jerseyNumber
    ensures !p.isOnField && p.totalSecondsPlayed == 0.0
    ensures p.lastSubInTime.None? && p.lastSubInMatchSeconds.None? && p.lastSubOutMatchSeconds.None?
    ensures p.currentPosition.None?
  {
    MatchPlayer(player, player.name, player.jerseyNumber, 0.0, false, None, None, None, None)
  }

  /** A fresh roster entry has neither played nor sat out, in any match, at any instant. */
  lemma NewPlayerHasNoTime(player: Player, m: Match, now: real)
    ensures SecondsPlayed(NewMatchPlayer(player), m, now) == 0.0
    ensures BenchSeconds(NewMatchPlayer(player), m, now) == 0.0
  {
  }

  /**
   `currentStintSeconds`: match seconds since the player last came on, or 0
   when off the field or when no stint start is recorded. Not clamped.
   */
  function CurrentStintSeconds(p: MatchPlayer, m: Match, now: real): (s: real)
    ensures !p.isOnField || p.lastSubInMatchSeconds.None? ==> s == 0.0
    ensures p.isOnField && p.lastSubInMatchSeconds.Some? ==>
      s + p.lastSubInMatchSeconds.value == ElapsedSeconds(m, now)
  {
    if p.isOnField && p.lastSubInMatchSeconds.Some? then
      ElapsedSeconds(m, now) - p.lastSubInMatchSeconds.value
    else
      0.0
  }

  /**
   `benchSeconds`: match seconds since the player last went off, or 0 when
   on the field or when no bench start is recorded. Not clamped.
   */
  function BenchSeconds(p: MatchPlayer, m: Match, now: real): (s: real)
    ensures p.isOnField || p.lastSubOutMatchSeconds.None? ==> s == 0.0
    ensures !p.isOnField && p.lastSubOutMatchSeconds.Some? ==>
      s + p.lastSubOutMatchSeconds.value == ElapsedSeconds(m, now)
  {
    if !p.isOnField && p.lastSubOutMatchSeconds.Some? then
      ElapsedSeconds(m, now) - p.lastSubOutMatchSeconds.value
    else
      0.0
  }

  /**
   `secondsPlayed(match:at:)`: completed time plus the open on-field stint,
   with no clamping.
   */
  function SecondsPlayed(p: MatchPlayer, m: Match, now: real): (s: real)
    ensures s == p.totalSecondsPlayed + CurrentStintSeconds(p, m, now)
    ensures !p.isOnField || p.lastSubInMatchSeconds.None? ==> s == p.totalSecondsPlayed
  {
    if p.isOnField && p.lastSubInMatchSeconds.Some? then
      p.totalSecondsPlayed + (ElapsedSeconds(m, now) - p.lastSubInMatchSeconds.value)
    else
      p.totalSecondsPlayed
  }

  /** At any instant at most one of the on-field and bench intervals is nonzero. */
  lemma StintAndBenchExclusive(p: MatchPlayer, m: Match, now: real)
    ensures CurrentStintSeconds(p, m, now) == 0.0 || BenchSeconds(p, m, now) == 0.0
  {
  }

  /** A player's time depends on the match only through its clock, not its roster. */
  lemma SecondsPlayedIgnoresRoster(p: MatchPlayer, m: Match, ps: seq<MatchPlayer>, now: real)
    ensures SecondsPlayed(p, m.(matchPlayers := ps), now) == SecondsPlayed(p, m, now)
  {
  }

  /** While an open match is paused nobody accrues time. */
  lemma SecondsPlayedFrozenWhilePaused(p: MatchPlayer, m: Match, t1: real, t2: real)
    requires m.IsPaused() && !m.IsEnded()
    ensures SecondsPlayed(p, m, t1) == SecondsPlayed(p, m, t2)
  {
  }

  /** `isUnderplayed`: trails `average` by more than `threshold`. */
  function IsUnderplayed(p: MatchPlayer, m: Match, now: real, average: real, threshold: real): (b: bool)
    ensures b ==> SecondsPlayed(p, m, now) < average - threshold
    ensures !b ==> SecondsPlayed(p, m, now) >= average - threshold
    ensures threshold >= 0.0 && SecondsPlayed(p, m, now) >= average ==> !b
  {
    SecondsPlayed(p, m, now) + threshold < average
  }

  /** A larger threshold flags no one a smaller threshold does not. */
  lemma UnderplayedAntitoneInThreshold(p: MatchPlayer, m: Match, now: real, average: real, t1: real, t2: real)
    requires t1 <= t2
    ensures IsUnderplayed(p, m, now, average, t2) ==> IsUnderplayed(p, m, now, average, t1)
  {
  }

  /**
   With the default 60-second threshold and an average of 100 seconds, a
   benched player with 30 seconds is underplayed and one with 50 is not.
   */
  lemma UnderplayedExamples(m: Match, now: real)
    ensures var p := NewMatchPlayer(Player(1, "A", 7));
      && IsUnderplayed(p.(totalSecondsPlayed := 30.0), m, now, 100.0, DefaultThreshold)
      && !IsUnderplayed(p.(totalSecondsPlayed := 50.0), m, now, 100.0, DefaultThreshold)
  {
  }
}

=== FILE: ranking.dfy ===
/**
 Sorting by a real-valued key, largest first, as the suggestion list does
 with Swift's `sorted(by:)`.
 */
module Ranking {

  /** Swift's `filter`: the entries that satisfy `keep`, order kept. */
  function Filter<T>(s: seq<T>, keep: T -> bool): (r: seq<T>)
    ensures forall x :: x in r ==> keep(x)
    ensures forall x :: x in s && keep(x) ==> x in r
    ensures multiset(r) <= multiset(s)
    ensures (forall i :: 0 <= i < |s| ==> !keep(s[i])) ==> r == []
  {
    if s == [] then []
    else
      var rest := Filter(s[1..], keep);
      assert s == [s[0]] + s[1..];
      if keep(s[0]) then [s[0]] + rest else rest
  }

  /** Each passing entry is kept as often as it occurs, and nothing else is kept. */
  lemma {:induction false} FilterCounts<T>(s: seq<T>, keep: T -> bool)
    ensures forall x :: multiset(Filter(s, keep))[x] == if keep(x) then multiset(s)[x] else 0
    decreases |s|
  {
    if s != [] {
      FilterCounts(s[1..], keep);
      assert s == [s[0]] + s[1..];
      assert multiset(s) == multiset{s[0]} + multiset(s[1..]);
    }
  }

  /** `filter` on a non-empty list: the head if it passes, then the filtered tail. */
  lemma FilterCons<T>(s: seq<T>, keep: T -> bool)
    requires s != []
    ensures Filter(s, keep) == (if keep(s[0]) then [s[0]] else []) + Filter(s[1..], keep)
  {
    if !keep(s[0]) {
      assert [] + Filter(s[1..], keep) == Filter(s[1..], keep);
    }
  }

  /**
   `filter` keeps the input order: filtering a concatenation filters each
   part and concatenates the results.
   */
  lemma {:induction false} FilterAppend<T>(a: seq<T>, b: seq<T>, keep: T -> bool)
    ensures Filter(a + b, keep) == Filter(a, keep) + Filter(b, keep)
    decreases |a|
  {
    if a == [] {
      assert a + b == b;
    } else {
      var head: seq<T> := if keep(a[0]) then [a[0]] else [];
      calc {
        Filter(a + b, keep);
      == { FilterCons(a + b, keep); assert (a + b)[1..] == a[1..] + b; }
        head + Filter(a[1..] + b, keep);
      == { FilterAppend(a[1..], b, keep); }
        head + (Filter(a[1..], keep) + Filter(b, keep));
      == { FilterCons(a, keep); }
        Filter(a, keep) + Filter(b, keep);
      }
    }
  }

  /** A single entry is kept exactly when it passes. */
  lemma FilterSingleton<T>(x: T, keep: T -> bool)
    ensures Filter([x], keep) == if keep(x) then [x] else []
  {
    assert [x][1..] == [];
  }

  predicate SortedDesc<T>(s: seq<T>, key: T -> real) {
    forall i, j :: 0 <= i < j < |s| ==> key(s[i]) >= key(s[j])
  }

  /** Inserts `x` after every entry whose key is at least as large. */
  function Insert<T>(x: T, s: seq<T>, key: T -> real): (r: seq<T>)
    requires SortedDesc(s, key)
    ensures SortedDesc(r, key)
    ensures multiset(r) == multiset(s) + multiset{x}
  {
    if s == [] then [x]
    else if key(x) > key(s[0]) then [x] + s
    else
      var rest := Insert(x, s[1..], key);
      assert s == [s[0]] + s[1..];
      assert forall i :: 0 <= i < |rest| ==> key(s[0]) >= key(rest[i]) by {
        forall i | 0 <= i < |rest| ensures key(s[0]) >= key(rest[i]) {
          assert rest[i] in multiset(rest);
          if rest[i] != x {
            assert rest[i] in multiset(s[1..]);
            var j :| 0 <= j < |s[1..]| && s[1..][j] == rest[i];
            assert s[j + 1] == rest[i];
          }
        }
      }
      [s[0]] + rest
  }

  /** Insertion sort: a permutation of `s` in non-increasing key order. */
  function SortDesc<T>(s: seq<T>, key: T -> real): (r: seq<T>)
    ensures SortedDesc(r, key)
    ensures multiset(r) == multiset(s)
  {
    if s == [] then []
    else
      assert s == s[..|s| - 1] + [s[|s| - 1]];
      Insert(s[|s| - 1], SortDesc(s[..|s| - 1], key), key)
  }

  /**
   In a list sorted by non-increasing key, nothing left out of the first k
   entries has a larger key than anything among them.
   */
  lemma PrefixKeepsLargest<T>(s: seq<T>, k: nat, key: T -> real)
    requires k <= |s| && SortedDesc(s, key)
    ensures forall x, y :: x in s && x !in s[..k] && y in s[..k] ==> key(x) <= key(y)
  {
    forall x, y | x in s && x !in s[..k] && y in s[..k]
      ensures key(x) <= key(y)
    {
      var j :| 0 <= j < |s| && s[j] == x;
      var i :| 0 <= i < k && s[..k][i] == y;
      assert s[..k][i] == s[i];
    }
  }

  /**
   `sorted(by:)` followed by `prefix(k)`: the k entries with the largest
   keys, largest first, or all of them when there are no more than k.
   */
  function TopK<T>(s: seq<T>, key: T -> real, k: nat): (r: seq<T>)
    ensures |r| <= k
    ensures SortedDesc(r, key)
    ensures multiset(r) <= multiset(s)
    ensures |s| <= k ==> multiset(r) == multiset(s)
    ensures |s| > k ==> |r| == k
    ensures forall x, y :: x in s && x !in r && y in r ==> key(x) <= key(y)
  {
    var sorted := SortDesc(s, key);
    var r := if |sorted| <= k then sorted else sorted[..k];
    assert sorted == r + sorted[|r|..];
    assert r == sorted[..|r|];
    PrefixKeepsLargest(sorted, |r|, key);
    assert forall x :: x in s ==> x in sorted by {
      forall x | x in s ensures x in sorted {
        assert x in multiset(s);
      }
    }
    r
  }
}

=== FILE: scoreboard_header.dfy ===
/**
 The match header of Views/ScoreboardHeader.swift: the time it shows and
 which clock and score controls it offers. `hasStartedPlay`, the goal counts
 and `finalElapsedSeconds` are computed by match code that is not part of
 this model; they enter as the opaque `HeaderFacts`.
 */
module ScoreboardHeader {
  import opened Optional
  import opened Model
  import opened MatchClock
  import opened TimeFormat

  datatype HeaderFacts = HeaderFacts(
    hasStartedPlay: bool,
    goalsFor: nat,
    goalsAgainst: nat,
    finalElapsedSeconds: Option<real>)

  datatype Controls = Controls(
    start: Availability,
    resume: Availability,
    pause: Availability,
    halftime: Availability,
    endMatch: Availability,
    removeOpponentGoal: Availability,
    addOpponentGoal: Availability)

  /**
   `displaySeconds`: the recorded final time of an ended match when there is
   one, otherwise the live clock.
   */
  function DisplaySeconds(m: Match, facts: HeaderFacts, now: real): (s: real)
    ensures m.IsEnded() && facts.finalElapsedSeconds.Some? ==> s == facts.finalElapsedSeconds.value
    ensures !(m.IsEnded() && facts.finalElapsedSeconds.Some?) ==> s == ElapsedSeconds(m, now)
    ensures facts.finalElapsedSeconds.None? || !m.IsEnded() ==> s >= 0.0
  {
    if m.IsEnded() then facts.finalElapsedSeconds.GetOr(ElapsedSeconds(m, now))
    else ElapsedSeconds(m, now)
  }

  /** The controls the header offers for a match in a given state. */
  function HeaderControls(m: Match, facts: HeaderFacts): (c: Controls)
    ensures c.start.Shown() <==> !facts.hasStartedPlay && !m.IsEnded()
    ensures c.resume.Shown() <==> m.IsPaused() && !m.IsEnded()
    ensures c.pause.Shown() <==> facts.hasStartedPlay && !m.IsPaused() && !m.IsEnded()
    ensures c.halftime.Shown() <==> c.pause.Shown()
    ensures !(c.resume.Shown() && c.pause.Shown())
    ensures c.start != Disabled && c.resume != Disabled && c.pause != Disabled
    ensures c.halftime == Enabled <==> c.pause.Shown() && !m.hasHadHalftime
    ensures c.endMatch.Shown() && (c.endMatch == Enabled <==> !m.IsEnded())
    ensures m.IsEnded() ==> !c.start.Shown() && !c.resume.Shown() && !c.pause.Shown() && !c.halftime.Shown()
    ensures c.removeOpponentGoal.Shown() && c.addOpponentGoal.Shown()
    ensures c.removeOpponentGoal == Enabled <==> facts.hasStartedPlay && facts.goalsAgainst != 0
    ensures c.addOpponentGoal == Enabled <==> facts.hasStartedPlay
  {
    var clockRunning := facts.hasStartedPlay && !m.IsPaused() && !m.IsEnded();
    Controls(
      start := if !facts.hasStartedPlay && !m.IsEnded() then Enabled else Hidden,
      resume := if m.IsPaused() && !m.IsEnded() then Enabled else Hidden,
      pause := if clockRunning then Enabled else Hidden,
      halftime := if clockRunning then EnabledUnless(m.hasHadHalftime) else Hidden,
      endMatch := EnabledUnless(m.IsEnded()),
      removeOpponentGoal := EnabledUnless(!facts.hasStartedPlay || facts.goalsAgainst == 0),
      addOpponentGoal := EnabledUnless(!facts.hasStartedPlay))
  }

  /** Once halftime has been started, as written or tagged, the header never enables it again. */
  lemma NoSecondHalftime(m: Match, facts: HeaderFacts, now: real)
    ensures HeaderControls(StartHalftime(m, now), facts).halftime != Enabled
    ensures HeaderControls(StartHalftimeTagged(m, now), facts).halftime != Enabled
  {
  }

  /**
   The header's private `formatTime`, `Int(seconds / 60)` and
   `Int(seconds) % 60` printed `%02d:%02d`: the same text as the shared
   `formatTime` for every input.
   */
  function HeaderFormatTime(seconds: real): (s: string)
    ensures s == FormatTime(seconds)
  {
    var f := RealFields(seconds);
    Render(f.0, f.1)
  }
}

=== FILE: stint_markers.dfy ===
/**
 The match-relative stint markers of a roster entry. `secondsPlayed`,
 `currentStintSeconds` and `benchSeconds` read `lastSubInMatchSeconds` and
 `lastSubOutMatchSeconds`, but no operation of the model writes them: a new
 entry has neither, and substitution, pause, resume, halftime and the end of
 the match leave both as they were. An entry the app creates therefore only
 ever reports its completed total as its playing time.
 */
module StintMarkers {
  import opened Model
  import opened PlayerTime
  import opened MatchClock
  import opened PlayerRow
  import opened MatchActive
  import opened MatchAggregate

  /** Neither match-relative marker is set. */
  predicate Unmarked(p: MatchPlayer) {
    p.lastSubInMatchSeconds.None? && p.lastSubOutMatchSeconds.None?
  }

  predicate RosterUnmarked(ps: seq<MatchPlayer>) {
    forall i :: 0 <= i < |ps| ==> Unmarked(ps[i])
  }

  /** The four per-entry stint updates leave both markers exactly as they were. */
  lemma StintUpdatesKeepMarkers(p: MatchPlayer, now: real)
    ensures var q := ToggleSub(p, now);
      q.lastSubInMatchSeconds == p.lastSubInMatchSeconds && q.lastSubOutMatchSeconds == p.lastSubOutMatchSeconds
    ensures var q := FreezeStint(p, now);
      q.lastSubInMatchSeconds == p.lastSubInMatchSeconds && q.lastSubOutMatchSeconds == p.lastSubOutMatchSeconds
    ensures var q := RestartStint(p, now);
      q.lastSubInMatchSeconds == p.lastSubInMatchSeconds && q.lastSubOutMatchSeconds == p.lastSubOutMatchSeconds
    ensures var q := EndStint(p, now);
      q.lastSubInMatchSeconds == p.lastSubInMatchSeconds && q.lastSubOutMatchSeconds == p.lastSubOutMatchSeconds
  {
  }

  /** Every entry of a freshly created match is unmarked. */
  lemma NewMatchUnmarked(name: string, players: seq<Player>, sport: SportType, now: real)
    ensures RosterUnmarked(NewMatch(name, players, sport, now).matchPlayers)
  {
  }

  /** Substituting one entry of an unmarked roster keeps the roster unmarked. */
  lemma ToggleSubKeepsUnmarked(ps: seq<MatchPlayer>, i: nat, now: real)
    requires RosterUnmarked(ps) && i < |ps|
    ensures RosterUnmarked(ps[i := ToggleSub(ps[i], now)])
  {
  }

  /** Pausing, resuming, halftime and ending the match keep the roster unmarked. */
  lemma MatchOperationsKeepUnmarked(m: Match, now: real)
    requires RosterUnmarked(m.matchPlayers)
    ensures RosterUnmarked(Pause(m, now).matchPlayers)
    ensures RosterUnmarked(Resume(m, now).matchPlayers)
    ensures RosterUnmarked(StartHalftime(m, now).matchPlayers)
    ensures RosterUnmarked(StartHalftimeTagged(m, now).matchPlayers)
    ensures RosterUnmarked(EndHalftime(m, now).matchPlayers)
    ensures RosterUnmarked(EndMatch(m, now).matchPlayers)
  {
  }

  /**
   An unmarked entry has no open stint and no bench time as far as the
   playing-time reads go, even while it is on the field: it has played
   exactly its completed total.
   */
  lemma UnmarkedPlaysCompletedTotal(p: MatchPlayer, m: Match, now: real)
    requires Unmarked(p)
    ensures CurrentStintSeconds(p, m, now) == 0.0 && BenchSeconds(p, m, now) == 0.0
    ensures SecondsPlayed(p, m, now) == p.totalSecondsPlayed
  {
  }

  /** Over an unmarked roster, the total played is the total of the completed stints. */
  lemma {:induction false} UnmarkedTotalIsCompleted(ps: seq<MatchPlayer>, m: Match, now: real)
    requires RosterUnmarked(ps)
    ensures TotalPlayed(ps, m, now) == SumTotals(ps)
    decreases |ps|
  {
    if ps != [] {
      assert Unmarked(ps[0]);
      UnmarkedTotalIsCompleted(ps[1..], m, now);
    }
  }

  /**
   The average over an unmarked roster ignores every open stint: it is the
   mean of the completed totals alone.
   */
  lemma AverageIgnoresOpenStints(m: Match, now: real)
    requires RosterUnmarked(m.matchPlayers) && |m.matchPlayers| > 0
    ensures AverageSecondsPlayed(m, now) == SumTotals(m.matchPlayers) / |m.matchPlayers| as real
  {
    AverageIsMean(m, now);
    UnmarkedTotalIsCompleted(m.matchPlayers, m, now);
  }
}

=== FILE: sub_suggestions.dfy ===
/**
 The sub suggestions of Views/SubSuggestionsView.swift: the players who
 trail the roster average by more than the default threshold, most
 underplayed first, at most three of them.
 */
module SubSuggestions {
  import opened Model
  import opened PlayerTime
  import opened MatchAggregate
  import opened Ranking

  /** How far a player trails the average. */
  function Deficit(p: MatchPlayer, m: Match, now: real, average: real): real {
    average - SecondsPlayed(p, m, now)
  }

  predicate SortedByDeficit(s: seq<MatchPlayer>, m: Match, now: real, average: real) {
    forall i, j :: 0 <= i < j < |s| ==> Deficit(s[i], m, now, average) >= Deficit(s[j], m, now, average)
  }

  /**
   `sorted { deficit1 > deficit2 }`: a permutation of the input in
   non-increasing order of deficit.
   */
  function SortByDeficit(s: seq<MatchPlayer>, m: Match, now: real, average: real): (r: seq<MatchPlayer>)
    ensures SortedByDeficit(r, m, now, average)
    ensures multiset(r) == multiset(s)
  {
    var key := p => Deficit(p, m, now, average);
    var r := SortDesc(s, key);
    assert SortedDesc(r, key);
    r
  }

  /** `filter { isUnderplayed(...) }` over the roster, order kept. */
  function FilterUnderplayed(ps: seq<MatchPlayer>, m: Match, now: real, average: real): (r: seq<MatchPlayer>)
    ensures forall x :: x in r ==> IsUnderplayed(x, m, now, average, DefaultThreshold)
    ensures forall x :: x in ps && IsUnderplayed(x, m, now, average, DefaultThreshold) ==> x in r
    ensures multiset(r) <= multiset(ps)
    ensures (forall i :: 0 <= i < |ps| ==> !IsUnderplayed(ps[i], m, now, average, DefaultThreshold)) ==> r == []
  {
    Filter(ps, UnderplayedTest(m, now, average))
  }

  /** The test `filter` applies: underplayed against `average` with the default threshold. */
  function UnderplayedTest(m: Match, now: real, average: real): MatchPlayer -> bool {
    x => IsUnderplayed(x, m, now, average, DefaultThreshold)
  }

  /** Each underplayed entry is kept as often as it occurs on the roster; no other entry is kept. */
  lemma FilterUnderplayedCounts(ps: seq<MatchPlayer>, m: Match, now: real, average: real)
    ensures forall x ::
      multiset(FilterUnderplayed(ps, m, now, average))[x] ==
      (if IsUnderplayed(x, m, now, average, DefaultThreshold) then multiset(ps)[x] else 0)
  {
    FilterCounts(ps, UnderplayedTest(m, now, average));
  }

  /**
   The filter keeps roster order: filtering two parts of a roster and
   concatenating gives the filtered whole, and a single entry is kept
   exactly when it is underplayed.
   */
  lemma FilterUnderplayedKeepsOrder(a: seq<MatchPlayer>, b: seq<MatchPlayer>, m: Match, now: real, average: real)
    ensures FilterUnderplayed(a + b, m, now, average) ==
      FilterUnderplayed(a, m, now, average) + FilterUnderplayed(b, m, now, average)
    ensures forall x ::
      FilterUnderplayed([x], m, now, average) ==
      (if IsUnderplayed(x, m, now, average, DefaultThreshold) then [x] else [])
  {
    FilterAppend(a, b, UnderplayedTest(m, now, average));
    forall x ensures FilterUnderplayed([x], m, now, average) ==
      (if IsUnderplayed(x, m, now, average, DefaultThreshold) then [x] else [])
    {
      FilterSingleton(x, UnderplayedTest(m, now, average));
    }
  }

  /**
   The suggestion list against a given average: the underplayed entries of
   `ps`, largest deficit first, cut to at most three.
   */
  function Suggest(ps: seq<MatchPlayer>, m: Match, now: real, average: real): (r: seq<MatchPlayer>)
    ensures |r| <= 3
    ensures forall x :: x in r ==> IsUnderplayed(x, m, now, average, DefaultThreshold)
    ensures SortedByDeficit(r, m, now, average)
    ensures multiset(r) <= multiset(ps)
    ensures var filtered := FilterUnderplayed(ps, m, now, average);
      && (|filtered| <= 3 ==> multiset(r) == multiset(filtered))
      && (|filtered| > 3 ==> |r| == 3)
    ensures forall x, y :: x in ps && IsUnderplayed(x, m, now, average, DefaultThreshold)
                           && x !in r && y in r ==>
      Deficit(x, m, now, average) <= Deficit(y, m, now, average)
  {
    var filtered := FilterUnderplayed(ps, m, now, average);
    var key := p => Deficit(p, m, now, average);
    var r := TopK(filtered, key, 3);
    assert SortedDesc(r, key);
    forall x | x in r
      ensures IsUnderplayed(x, m, now, average, DefaultThreshold)
    {
      assert x in multiset(r);
      assert x in filtered;
    }
    forall x, y | x in ps && IsUnderplayed(x, m, now, average, DefaultThreshold) && x !in r && y in r
      ensures Deficit(x, m, now, average) <= Deficit(y, m, now, average)
    {
      assert x in filtered;
      assert key(x) <= key(y);
    }
    r
  }

  /**
   `underplayedPlayers`: the suggestion list against the roster's own
   average playing time.
   */
  function UnderplayedPlayers(m: Match, now: real): (r: seq<MatchPlayer>)
    ensures |r| <= 3
    ensures multiset(r) <= multiset(m.matchPlayers)
    ensures var average := AverageSecondsPlayed(m, now);
      && (forall x :: x in r ==> IsUnderplayed(x, m, now, average, DefaultThreshold))
      && SortedByDeficit(r, m, now, average)
      && (forall x, y :: x in m.matchPlayers && IsUnderplayed(x, m, now, average, DefaultThreshold)
                         && x !in r && y in r ==>
            Deficit(x, m, now, average) <= Deficit(y, m, now, average))
    ensures var filtered := FilterUnderplayed(m.matchPlayers, m, now, AverageSecondsPlayed(m, now));
      && (|filtered| <= 3 ==> multiset(r) == multiset(filtered))
      && (|filtered| > 3 ==> |r| == 3)
  {
    Suggest(m.matchPlayers, m, now, AverageSecondsPlayed(m, now))
  }

  /** When everyone has played the same time, nobody is suggested. */
  lemma EqualTimesSuggestNobody(m: Match, now: real, c: real)
    requires forall i :: 0 <= i < |m.matchPlayers| ==> SecondsPlayed(m.matchPlayers[i], m, now) == c
    ensures UnderplayedPlayers(m, now) == []
  {
    if |m.matchPlayers| > 0 {
      AverageOfEqualTimes(m, now, c);
    }
    NobodyBelowAverageSuggestNobody(m.matchPlayers, m, now, AverageSecondsPlayed(m, now));
  }

  /** Nobody is suggested when nobody has played less than the average. */
  lemma NobodyBelowAverageSuggestNobody(ps: seq<MatchPlayer>, m: Match, now: real, average: real)
    requires forall i :: 0 <= i < |ps| ==> SecondsPlayed(ps[i], m, now) >= average
    ensures Suggest(ps, m, now, average) == []
  {
    var filtered := FilterUnderplayed(ps, m, now, average);
    assert forall i :: 0 <= i < |ps| ==> !IsUnderplayed(ps[i], m, now, average, DefaultThreshold);
  }
}

=== FILE: time_format.dfy ===
/**
 The `mm:ss` clock formatter (`formatTime` in TimeFormatter.swift) and the
 integer primitives it is built from. Swift's `Int(Double)` truncates toward
 zero, and Swift's integer `/` and `%` truncate toward zero as well; Dafny's
 are Euclidean, so both are written out here. `String(format: "%02d", n)`
 is `Pad2`.
 */
module TimeFormat {
  import opened Optional

  /** Swift's `Int(x)` for a `Double` x: truncation toward zero. */
  function Trunc(x: real): (n: int)
    ensures x >= 0.0 ==> n >= 0 && n as real <= x < n as real + 1.0
    ensures x < 0.0 ==> n <= 0 && n as real - 1.0 < x <= n as real
  {
    if x >= 0.0 then x.Floor else -((-x).Floor)
  }

  /** Swift's `a / d` on `Int` for a positive divisor. */
  function Quot(a: int, d: int): int
    requires d > 0
  {
    if a >= 0 then a / d else -((-a) / d)
  }

  /** Swift's `a % d` on `Int` for a positive divisor: the sign follows `a`. */
  function Rem(a: int, d: int): (r: int)
    requires d > 0
    ensures Quot(a, d) * d + r == a
    ensures a >= 0 ==> 0 <= r < d
    ensures a < 0 ==> -d < r <= 0
  {
    if a >= 0 then a % d else -((-a) % d)
  }

  predicate IsDigit(c: char) {
    '0' <= c <= '9'
  }

  function DigitChar(d: nat): (c: char)
    requires d < 10
    ensures IsDigit(c)
  {
    (48 + d) as char
  }

  function DigitValue(c: char): nat
    requires IsDigit(c)
  {
    c as int - 48
  }

  /** Decimal digits of a natural number, most significant first, no padding. */
  function Digits(n: nat): (s: string)
    ensures |s| >= 1
    ensures forall i :: 0 <= i < |s| ==> IsDigit(s[i])
    ensures n < 10 <==> |s| == 1
    ensures 10 <= n < 100 ==> |s| == 2
    ensures n >= 100 ==> |s| >= 3
  {
    if n < 10 then [DigitChar(n)] else Digits(n / 10) + [DigitChar(n % 10)]
  }

  /** Reads a string of decimal digits back as a number (leading zeros allowed). */
  function ParseDigits(s: string): nat
    requires forall i :: 0 <= i < |s| ==> IsDigit(s[i])
  {
    if |s| == 0 then 0 else ParseDigits(s[..|s| - 1]) * 10 + DigitValue(s[|s| - 1])
  }

  lemma {:induction false} ParseDigitsOfDigits(n: nat)
    ensures ParseDigits(Digits(n)) == n
    decreases n
  {
    if n >= 10 {
      var s := Digits(n);
      assert s == Digits(n / 10) + [DigitChar(n % 10)];
      assert s[..|s| - 1] == Digits(n / 10);
      ParseDigitsOfDigits(n / 10);
    }
  }

  /** `String(format: "%02d", n)`: at least two characters, zero-padded, sign first. */
  function Pad2(n: int): (s: string)
    ensures |s| >= 2
    ensures n >= 0 ==> forall i :: 0 <= i < |s| ==> IsDigit(s[i])
    ensures n >= 0 ==> ParseDigits(s) == n
    ensures 0 <= n < 100 ==> |s| == 2
    ensures n >= 100 ==> |s| >= 3
    ensures n < 0 ==> s[0] == '-'
  {
    if n < 0 then
      "-" + Digits(-n)
    else if n < 10 then
      var s := "0" + Digits(n);
      assert s[..1] == "0";
      ParseDigitsOfDigits(n);
      s
    else
      ParseDigitsOfDigits(n);
      Digits(n)
  }

  /** The minutes and seconds fields `formatTime` prints for a duration. */
  function Fields(seconds: real): (f: (int, int))
    ensures f.0 * 60 + f.1 == Trunc(seconds)
    ensures seconds >= 0.0 ==> f.0 >= 0 && 0 <= f.1 < 60
    ensures seconds < 0.0 ==> f.0 <= 0 && -60 < f.1 <= 0
  {
    var total := Trunc(seconds);
    (Quot(total, 60), Rem(total, 60))
  }

  /** `%02d:%02d` of a minutes/seconds pair. */
  function Render(minutes: int, secs: int): (s: string)
    ensures |s| >= 5
  {
    Pad2(minutes) + ":" + Pad2(secs)
  }

  /**
   Reads a rendered non-negative clock back: digits, a colon, exactly two
   digits; the value is MM * 60 + SS.
   */
  function ParseClock(s: string): Option<int> {
    if |s| >= 5 && s[|s| - 3] == ':'
       && (forall i :: 0 <= i < |s| - 3 ==> IsDigit(s[i]))
       && IsDigit(s[|s| - 2]) && IsDigit(s[|s| - 1])
    then
      Some(ParseDigits(s[..|s| - 3]) * 60 + ParseDigits(s[|s| - 2..]))
    else
      None
  }

  /** TimeFormatter.swift `formatTime`. */
  function FormatTime(seconds: real): (s: string)
    ensures |s| >= 5
    ensures seconds >= 0.0 ==> s[|s| - 3] == ':'
    ensures seconds >= 0.0 ==> forall i :: 0 <= i < |s| && i != |s| - 3 ==> IsDigit(s[i])
    ensures 0.0 <= seconds < 6000.0 ==> |s| == 5
    ensures seconds >= 6000.0 ==> |s| > 5
    ensures seconds >= 0.0 ==> ParseClock(s) == Some(Trunc(seconds))
  {
    var f := Fields(seconds);
    var s := Render(f.0, f.1);
    if seconds >= 0.0 then
      RenderParses(f.0, f.1);
      s
    else
      s
  }

  /** Rendering a non-negative minutes field and a seconds field in [0, 60) parses back. */
  lemma RenderParses(minutes: int, secs: int)
    requires minutes >= 0 && 0 <= secs < 60
    ensures var s := Render(minutes, secs);
      && s[|s| - 3] == ':'
      && (forall i :: 0 <= i < |s| && i != |s| - 3 ==> IsDigit(s[i]))
      && ParseClock(s) == Some(minutes * 60 + secs)
  {
    var s := Render(minutes, secs);
    var m := Pad2(minutes);
    var c := Pad2(secs);
    assert s == m + ":" + c;
    assert s[..|s| - 3] == m;
    assert s[|s| - 2..] == c;
  }

  /**
   The split written as `Int(seconds / 60)` and `Int(seconds) % 60`: it picks
   the same fields as `Fields`, for every duration.
   */
  function RealFields(seconds: real): (f: (int, int))
    ensures f == Fields(seconds)
  {
    TruncDiv60(seconds);
    (Trunc(seconds / 60.0), Rem(Trunc(seconds), 60))
  }

  /** Truncating before or after dividing by 60 gives the same whole minutes. */
  lemma TruncDiv60(x: real)
    ensures Trunc(x / 60.0) == Quot(Trunc(x), 60)
  {
    if x >= 0.0 {
      FloorDiv60(x);
    } else {
      FloorDiv60(-x);
      assert -x / 60.0 == -(x / 60.0);
    }
  }

  lemma FloorDiv60(x: real)
    requires x >= 0.0
    ensures (x / 60.0).Floor == x.Floor / 60
  {
    var n := x.Floor;
    var q := n / 60;
    assert q * 60 <= n < q * 60 + 60;
    assert (q * 60) as real <= x < (q * 60 + 60) as real;
    assert q as real <= x / 60.0 < (q + 1) as real;
  }
}
